=== FILE: README.md ===
# Traffic monitor, backup daemon and expense report — a Dafny model

This project models the decision logic of three small Python programs and proves
properties about it.

- **The traffic monitor** (`analyzer/analyzer.py`). `TrafficMonitor` watches captured
  TCP frames. It keeps per-address statistics and applies three threshold rules:
  large packet, port scan and repeated requests. Each address is admitted to the
  suspicious list at most once, with the reason of the first rule that matched.
  Capture sessions are started and ended. In the model the monitor's mutable fields
  become one immutable `State`, and `packet_handler`, `start` and `on_sniff_end`
  become pure transitions (`Analyzer.Step`, `Analyzer.Start`, `Analyzer.End`). The
  address parsing of `block_ips` becomes `Analyzer.BlockTargets`.
- **The backup daemon** (`daemoon/daemoon.py`). The model covers:
  - which `backup_*` directories the retention policy deletes;
  - how a new backup directory is named;
  - what `status` concludes from the PID file;
  - how `create_config` fills in its defaults.

  The file system, the process table and the terminal are inputs (module
  `Daemon`).
- **The expense report** (`_tasks_15_09/2.py`). Expenses are summed per user. Users
  whose total is strictly above 300 are kept and annotated with their total. The
  totals are then reduced from 0 (module `Expenses`).

Module `PyText` models the Python built-ins that the first two programs use:
`str.strip`, `str.startswith`, `str.split(sep)[0]`, `int(str)` and `str(int)`.

Two details of the monitor's state, as the code has them:

- `start` clears the flags, the statistics, the repeat counters and the list
  (analyzer/analyzer.py:152-155) but not `last_event_time`. That timestamp is set in
  `__init__` (analyzer/analyzer.py:19) and moved only when the repeat rule admits an
  address (analyzer/analyzer.py:140). A second session therefore inherits the repeat
  gate of the first (`Analyzer.RestartForgets`), and the gate is open for the first 5
  seconds after construction.
- The port set of an address grows only while the port check is enabled
  (analyzer/analyzer.py:119-120). The repeat counter (`ip_event_count`) is separate
  from the packet count (`ip_stats[...]['count']`) and grows only while the repeat
  check is enabled (analyzer/analyzer.py:129-130). The packet count grows on every
  handled frame (analyzer/analyzer.py:142).

`split(' - ')[0]` returns the address of a listbox line whenever the address
contains no space, which holds for every textual IPv4 or IPv6 address. Merely
containing no `" - "` is not enough. An address ending in `" -"` forms a separator
occurrence together with the separator that follows it
(`Analyzer.StraddlingSeparator`).

## Model

| member | source | states |
|---|---|---|
| PyText.Strip | daemoon/daemoon.py:170-174 | the stripped text is empty exactly when the text is all whitespace, is never longer than the text, and otherwise starts and ends with a non-space character |
| PyText.StripSlice | daemoon/daemoon.py:170-174 | the stripped answer is a contiguous slice of the typed answer, and everything cut away on either side is whitespace |
| PyText.StripPadded | daemoon/daemoon.py:172-173 | whitespace padding around a text with non-space ends is exactly what `strip()` removes |
| PyText.StripIdempotent | daemoon/daemoon.py:172-173 | stripping an already stripped answer changes nothing |
| PyText.FirstField | analyzer/analyzer.py:180 | `split(sep)[0]` is a prefix of the line that ends at the first occurrence of the separator, or the whole line when there is none |
| PyText.FirstFieldAt | analyzer/analyzer.py:180 | a separator at position k and none before it makes the first field the first k characters |
| PyText.ParseInt | daemoon/daemoon.py:195 | `int()` fails on text made only of the whitespace it skips, blank text included; it reads a plain run of up to 4300 decimal digits as its value and refuses a longer run |
| PyText.DigitsRoundTrip | daemoon/daemoon.py:90 | the decimal digits `str()` writes for a non-negative number read back as that number |
| PyText.ShowRoundTrip | daemoon/daemoon.py:90 | `int(str(n)) == n` for every integer of at most 4300 digits |
| PyText.ParseShowRoundTrip | daemoon/daemoon.py:90 | `int(str(n)) == n` for every integer of at most 4300 digits, even with the whitespace `int()` skips around the text |
| PyText.StripThenParse | daemoon/daemoon.py:172-173 | stripping every `isspace()` character before `int()` never changes the value of a text that `int()` accepts as it is |
| PyText.IntRejectsSeparators | daemoon/daemoon.py:172-173 | `strip()` removes a leading U+001C that `int()` alone refuses, so the dialogue accepts a number that `int()` would reject unstripped |
| Analyzer.Init | analyzer/analyzer.py:15-19 | a new monitor is idle, has no flags, statistics, repeat counters or list lines, satisfies the registry invariant, and has its repeat gate at construction time |
| Analyzer.Step | analyzer/analyzer.py:95-142 | non-TCP/IP frames change nothing; otherwise the source's packet count grows by one, its port set grows only with the port check on, first-seen is set once and no other address is touched; the repeat counter moves only with the repeat check on; a new address is admitted exactly when a rule matches, with the first matching reason in the order size, port scan, repeat; the shared gate moves only on a repeat admission |
| Analyzer.StepKeepsWf | analyzer/analyzer.py:111-140 | one frame keeps the list free of duplicate addresses and equal, as a set, to the flagged addresses |
| Analyzer.RunKeepsWf | analyzer/analyzer.py:111-140 | over any sequence of frames no address is ever listed twice and the list holds exactly the flagged addresses |
| Analyzer.ListMatchesRegistry | analyzer/analyzer.py:112-138 | the list has as many lines as there are flagged addresses |
| Analyzer.RunOnlyGrows | analyzer/analyzer.py:104-142 | within a session listed entries never change, flags are never lost, and statistics are never dropped: port sets and counts only grow and first-seen never moves |
| Analyzer.RunCountsFrames | analyzer/analyzer.py:142 | an address's packet count rises by exactly the number of handled frames it sent |
| Analyzer.RepeatGateStaysShut | analyzer/analyzer.py:129-140 | once every clock reading is at least 5 seconds past the shared gate, no address is ever flagged for repeated requests and the gate never moves |
| Analyzer.PortScanAfterFourthPort | analyzer/analyzer.py:118-126 | with threshold 3, three distinct ports leave an address unflagged and a fourth flags it for a port scan |
| Analyzer.SizeLimitIsStrict | analyzer/analyzer.py:110-116 | under the default limit of 500 a 501-byte frame flags its source and a 500-byte frame does not |
| Analyzer.Start | analyzer/analyzer.py:144-155 | `start` does nothing while monitoring; otherwise it enters monitoring with empty flags, statistics, counters and list, keeps the repeat gate, and preserves the registry invariant |
| Analyzer.RestartForgets | analyzer/analyzer.py:144-155 | after run, end and restart nothing flagged in the first run is pre-flagged, and the repeat gate carries over |
| Analyzer.End | analyzer/analyzer.py:164-169 | `on_sniff_end` leaves monitoring and reports the number of flagged addresses only when a capture was running; it changes nothing else |
| Analyzer.EndReportsListLength | analyzer/analyzer.py:164-169 | the reported number equals the number of listbox lines |
| Analyzer.DisplayRoundTrip | analyzer/analyzer.py:178-180 | parsing a listbox line back yields its address, whatever the ISP text and reason, for an address with no space |
| Analyzer.StraddlingSeparator | analyzer/analyzer.py:180 | an address ending in `" -"` is cut short by the parse |
| Analyzer.BlockTargets | analyzer/analyzer.py:177-180 | `block_ips` hands the firewall one address per selected line, and it is the listed address whenever that has no space |
| Daemon.Candidates | daemoon/daemoon.py:47-51 | only directories whose name starts with `backup_` are collected, each as often as it is listed |
| Daemon.SortNewestFirst | daemoon/daemoon.py:53 | the candidates are ordered newest first and none is lost or duplicated |
| Daemon.PySliceFrom | daemoon/daemoon.py:56 | `xs[k:]` is a suffix whose length follows Python's slice rules, including a negative `k` counted from the end |
| Daemon.CleanupOldBackups | daemoon/daemoon.py:44-61 | kept and removed together are the candidates, newest first; only candidates are removed; nothing is removed within the limit; past a non-negative limit exactly the excess goes; a negative limit removes that many of the oldest; nothing removed is newer than anything kept |
| Daemon.ZeroLimitKeepsNothing | daemoon/daemoon.py:55-57 | a limit of 0 deletes every candidate |
| Daemon.BackupName | daemoon/daemoon.py:65-66 | the new directory's name is `backup_` followed by the timestamp, so it is a retention candidate |
| Daemon.NewBackupSurvives | daemoon/daemoon.py:63-76 | the backup just made is a candidate; wherever the directory listing puts it, when the modification time `copytree` gave it is strictly later than every earlier backup's, it survives the cleanup that follows when the limit is at least 1, and is deleted at once when the limit is 0 |
| Daemon.NewBackupDeletedOnTie | daemoon/daemoon.py:53-57 | with two backups of equal modification time, the older listed first, and a limit of 1, the sort keeps listing order and the backup just made is the one removed |
| Daemon.CleanupByStamp | daemoon/daemoon.py:44-61 | the policy ordered by the timestamp in each name: kept and removed together are the candidates, newest name first; only candidates are removed; the limit is honoured as in `cleanup_old_backups`; nothing removed has a later name than anything kept |
| Daemon.NewBackupSurvivesByStamp | daemoon/daemoon.py:63-76 | ordered by name, the backup just made survives any positive limit whatever modification time it was given and wherever the listing puts it, provided its timestamp is later than every earlier backup's |
| Daemon.ShowStatus | daemoon/daemoon.py:187-203 | no PID file means STOPPED with nothing removed; RUNNING exactly when the file parses as an integer whose process answers signal 0; in every other case STOPPED and the stale file is removed |
| Daemon.StatusReadsWrittenPid | daemoon/daemoon.py:83-92 | the PID file as the daemon writes it reads back as that process, for any PID of at most 4300 digits: RUNNING while it lives, STOPPED with the file removed once it is dead |
| Daemon.IntOrDefault | daemoon/daemoon.py:172-173 | a blank answer gives the parsed default text; any other answer is parsed after `strip()`, and a failed parse aborts; an answer `int()` accepts as typed keeps that value |
| Daemon.TextOrDefault | daemoon/daemoon.py:174 | a blank answer gives the default log file, any other the stripped answer |
| Daemon.DefaultsParse | daemoon/daemoon.py:172-173 | the default texts `"3600"` and `"30"` read as 3600 and 30 |
| Daemon.CreateConfig | daemoon/daemoon.py:165-175 | a configuration is produced exactly when both numeric answers parse; its fields are then the stripped directories, the two parsed numbers and the stripped log file or its default; each blank answer takes its own default (3600 seconds, 30 backups, the default log file) whatever the others are; a number `int()` reads as typed is taken as typed |
| Daemon.ConfigTakesTypedNumbers | daemoon/daemoon.py:172-173 | both numbers typed back, each with its own surrounding blanks, configure exactly those numbers |
| Expenses.TotalExpenses | _tasks_15_09/2.py:10-11 | Python's left-to-right `sum` equals the arithmetic sum of the list |
| Expenses.FoldSumIsSum | _tasks_15_09/2.py:10-11 | a running total started at any value ends at that value plus the sum |
| Expenses.TotalExpensesLoop | _tasks_15_09/2.py:10-11 | the loop form of the running total is the arithmetic sum |
| Expenses.SumAppend | _tasks_15_09/2.py:10-11 | the sum of a concatenation is the sum of the parts |
| Expenses.FilterUsers | _tasks_15_09/2.py:14 | the filter returns only listed users whose total is strictly above 300 |
| Expenses.KeepOne | _tasks_15_09/2.py:14 | a single user is kept exactly when their total exceeds 300, so a total of 300 is dropped |
| Expenses.FilterContents | _tasks_15_09/2.py:14 | every user above 300 is kept as often as they are listed, and every other user is dropped |
| Expenses.FilterMembership | _tasks_15_09/2.py:14 | a user passes the filter if and only if they are listed and spent more than 300 |
| Expenses.FilterAppend | _tasks_15_09/2.py:14 | filtering keeps the original relative order: it distributes over concatenation |
| Expenses.AllKept | _tasks_15_09/2.py:14 | when everybody spent more than 300 the filter returns the whole list |
| Expenses.AddTotals | _tasks_15_09/2.py:17 | each output record is its input user, in the same position, plus a total equal to the sum of their expenses |
| Expenses.OverallExpenses | _tasks_15_09/2.py:20 | the reduce yields 0 when no user is kept |
| Expenses.OverallIsSumOfTotals | _tasks_15_09/2.py:20 | the reduce adds up exactly the totals it is given |
| Expenses.Script | _tasks_15_09/2.py:14-20 | every printed user is an input user whose total exceeds 300 |
| Expenses.ScriptOverallIsKeptSpending | _tasks_15_09/2.py:14-20 | the overall figure is the combined spending of the users that passed the filter |
| Expenses.OverallExceedsThreshold | _tasks_15_09/2.py:14-20 | the overall figure is at least 301 per printed user |
| Expenses.SampleReport | _tasks_15_09/2.py:3-20 | on the script's own four users all pass and the overall figure is 2430 |

## Left out

- User interfaces are left out because they are presentation only: the Tkinter window, `log_msg`, the message boxes and the `print` output of the daemon and the expense report. The check boxes and threshold fields become the `Config` record.
- `get_isp_info` is left out because it is an HTTP call to an external service. Its answer is the opaque `isp` input of each event.
- The `sudo iptables` calls of `block_ips` are left out because they are external processes. Only the address parsing is modelled.
- `sniff`, its 15-second timeout and the worker thread are left out because they are capture and concurrency. Frames are an input sequence handled in order, and `End` is the moment the capture finishes.
- Wall-clock `time.time()` floats become integer clock readings. Packet sizes, ports and modification times are integers too.
- Analyzer.Run: the configuration is fixed for a whole run. The monitor reads its fields on every packet, so a setting changed mid-capture is not modelled; `Step` does take any configuration.
- Analyzer.Step: the ISP text is supplied with every frame. The monitor looks it up only when it admits an address, which makes no difference to the state.
- Analyzer.Step: the thresholds and switches are plain values in `Config`. The monitor reads them from Tk variables with `.get()` on every frame (analyzer/analyzer.py:111, 121, 133). A threshold field holding a decimal such as `500.9` reads as 500, and one holding text that is not a number raises `TclError`. That exception ends the capture thread before it schedules `on_sniff_end`, so `is_monitoring` stays true and every later `start` returns at once. This failure path is not modelled.
- Analyzer.DisplayRoundTrip: it assumes the address has no space. That is sufficient, not necessary; the exact condition is that no separator occurrence starts inside the address.
- The daemon's file and process I/O is not modelled: `load_config`, `setup_logging`, `write_pid`, `remove_pid`, `stop_daemon`, `show_logs`, signal handling, the sleep loop in `run_backup_daemon`, `subprocess.Popen` in `main`, and `json` writing and `chmod` in `create_config`.
- The directory listing, `isdir` and `getmtime` are the `DirEntry` inputs.
- Daemon.CleanupOldBackups: it treats every selected directory as deleted. In the daemon a failing `rmtree` ends the loop and leaves the rest, and that error path is not modelled.
- Daemon.SortNewestFirst: its contract states sorted and a permutation, not stability. Its body keeps listing order among equal times, as Python's sort does with `reverse=True`; `Daemon.NewBackupDeletedOnTie` relies on that for one concrete listing only.
- Daemon.NewBackupSurvives: it covers a successful copy only. A failing `copytree` skips the cleanup, and `strftime` is abstracted as the timestamp text.
- Daemon.ShowStatus: `os.kill(pid, 0)` is the `alive` input, and a permission error counts as a dead process, since it is an `OSError`. The `OverflowError` that `os.kill` raises for an out-of-range PID escapes the handler in the daemon; it is not modelled.
- PyText.ParseInt: its own contract covers text of skippable whitespace only and plain digit runs. Signed numbers with surrounding whitespace are covered by `PyText.ParseShowRoundTrip` for every text that `str()` produces, and text starting with neither sign nor digit by `PyText.NotANumber`. Other malformed text is defined by the body, not stated.
- PyText.ParseInt: underscores between digits and non-ASCII decimal digits, which Python's `int()` accepts, give `None` in the model.
- Daemon.CreateConfig: the log-file prompt names `/var/log/backup_daemon.log`, but the default actually used is `/home/joshi/backup_daemon.log`. The model follows the value used.
- Expenses: users become a `User` datatype instead of dictionaries. `{**u, ...}` becomes `UserWithTotal`, which carries the same two fields plus the total.

## Findings

| source | as written | input that shows it | evidently intended | confidence | as-written member | corrected member |
|---|---|---|---|---|---|---|
| daemoon/daemoon.py:53 | backups are ordered by `getmtime`, but `copytree` (daemoon/daemoon.py:72) copies the source directory's modification time onto each new backup, so backups of an unchanged source tie | `backup_20250101000000` then `backup_20250101010000`, both with modification time 7, listed in that order, `max_backups` 1: the stable sort keeps that order and the backup just made is deleted | the most recently made backups are kept; ordered by the timestamp in the name, the new backup survives any positive limit (`Daemon.NewBackupSurvivesByStamp`) | medium; not executed | Daemon.NewBackupDeletedOnTie | Daemon.CleanupByStamp |

=== FILE: analyzer.dfy ===
/** The detection engine of the traffic monitor: per-address statistics, three
    threshold rules (large packet, port scan, repeated requests), the registry of
    suspicious addresses with its at-most-once admission, and the Idle/Running
    session lifecycle. The monitor's mutable fields become one immutable `State`;
    each handler becomes a pure transition. */
module Analyzer {
  import opened PyText

  /** The repeat rule's window, in seconds, measured against one shared timestamp. */
  const RepeatWindow: int := 5

  /** Separator of the fields of a listbox line. */
  const Sep: string := " - "

  /** What the handler reads from a captured frame; a frame without an IP or a TCP
      layer carries no meaningful address, port or size. */
  datatype Packet = Packet(hasIP: bool, hasTCP: bool, src: string, dport: nat, size: nat)

  /** The three check boxes and the three threshold fields, read on every packet. */
  datatype Config = Config(
    sizeCheck: bool, portCheck: bool, repeatCheck: bool,
    maxSize: int, portThresh: int, repeatThresh: int)

  /** The values the settings panel starts with. */
  const DefaultConfig: Config := Config(true, true, true, 500, 3, 10)

  /** Running statistics of one source address. */
  datatype Stat = Stat(ports: set<nat>, count: nat, firstSeen: int)

  datatype Reason = LargePacket | PortScan | RepeatedRequests

  /** One line of the suspicious-address list. */
  datatype Entry = Entry(ip: string, isp: string, reason: Reason)

  datatype State = State(
    suspicious: set<string>,          // addresses already flagged
    ipList: seq<Entry>,               // the listbox, in insertion order
    ipStats: map<string, Stat>,
    eventCount: map<string, nat>,     // the repeat rule's own counter
    lastEventTime: int,               // shared gate of the repeat rule
    monitoring: bool)

  /** One packet as it reaches the handler: the frame, the clock reading taken
      for it, and the answer the ISP lookup gives for its source address. */
  datatype Event = Event(packet: Packet, now: int, isp: string)

  function ReasonText(r: Reason): string {
    match r
    case LargePacket => "Large packet"
    case PortScan => "Port scan"
    case RepeatedRequests => "Repeated requests"
  }

  /** The text the listbox shows for an entry. */
  function Display(e: Entry): string {
    e.ip + Sep + e.isp + Sep + ReasonText(e.reason)
  }

  function Ips(l: seq<Entry>): (r: seq<string>)
    ensures |r| == |l|
    ensures forall i :: 0 <= i < |l| ==> r[i] == l[i].ip
  {
    seq(|l|, i requires 0 <= i < |l| => l[i].ip)
  }

  predicate Distinct<T(==)>(xs: seq<T>) {
    forall i, j :: 0 <= i < j < |xs| ==> xs[i] != xs[j]
  }

  function Elements<T(==)>(xs: seq<T>): set<T> {
    set x | x in xs
  }

  /** The registry invariant: the listbox holds each flagged address exactly once
      and nothing else. */
  predicate Wf(s: State) {
    && Distinct(Ips(s.ipList))
    && Elements(Ips(s.ipList)) == s.suspicious
  }

  // ---------------------------------------------------------------- statistics

  function PortsSeen(s: State, ip: string): set<nat> {
    if ip in s.ipStats then s.ipStats[ip].ports else {}
  }

  function PacketsSeen(s: State, ip: string): nat {
    if ip in s.ipStats then s.ipStats[ip].count else 0
  }

  function EventsSeen(s: State, ip: string): nat {
    if ip in s.eventCount then s.eventCount[ip] else 0
  }

  /** The first-seen time of the packet's source: kept once set, else the packet's time. */
  function FirstSeenAfter(s: State, p: Packet, now: int): int {
    if p.src in s.ipStats then s.ipStats[p.src].firstSeen else now
  }

  // ------------------------------------------------------------------- rules

  predicate SizeRule(cfg: Config, p: Packet) {
    cfg.sizeCheck && p.size > cfg.maxSize
  }

  /** The port set of the packet's source once the packet has been recorded. */
  function PortsAfter(s: State, cfg: Config, p: Packet): set<nat> {
    if cfg.portCheck then PortsSeen(s, p.src) + {p.dport} else PortsSeen(s, p.src)
  }

  predicate PortRule(cfg: Config, ports: set<nat>) {
    cfg.portCheck && |ports| > cfg.portThresh
  }

  /** The repeat counter of the packet's source once the packet has been recorded. */
  function EventsAfter(s: State, cfg: Config, p: Packet): nat {
    if cfg.repeatCheck then EventsSeen(s, p.src) + 1 else EventsSeen(s, p.src)
  }

  predicate RepeatRule(cfg: Config, events: nat, lastEventTime: int, now: int) {
    cfg.repeatCheck && events > cfg.repeatThresh && now - lastEventTime < RepeatWindow
  }

  /** The first rule, in the order size, port scan, repeat, that a packet from an
      address not yet flagged satisfies. */
  function FirstMatch(s: State, cfg: Config, p: Packet, now: int): Option<Reason> {
    if SizeRule(cfg, p) then Some(LargePacket)
    else if PortRule(cfg, PortsAfter(s, cfg, p)) then Some(PortScan)
    else if RepeatRule(cfg, EventsAfter(s, cfg, p), s.lastEventTime, now) then Some(RepeatedRequests)
    else None
  }

  // ------------------------------------------------------ the packet handler

  /** Registry insertion guarded by the dedup test each rule block performs. */
  function Admit(s: State, ip: string, isp: string, reason: Reason): (r: State)
    ensures r.ipStats == s.ipStats && r.eventCount == s.eventCount
    ensures r.lastEventTime == s.lastEventTime && r.monitoring == s.monitoring
    ensures ip in s.suspicious ==> r.suspicious == s.suspicious && r.ipList == s.ipList
    ensures ip !in s.suspicious ==>
      r.suspicious == s.suspicious + {ip} && r.ipList == s.ipList + [Entry(ip, isp, reason)]
  {
    if ip in s.suspicious then s
    else s.(suspicious := s.suspicious + {ip}, ipList := s.ipList + [Entry(ip, isp, reason)])
  }

  /** The statistics entry of a new address is created with the packet's time. */
  function Touch(s: State, ip: string, now: int): (r: State)
    ensures r.suspicious == s.suspicious && r.ipList == s.ipList && r.eventCount == s.eventCount
    ensures r.lastEventTime == s.lastEventTime && r.monitoring == s.monitoring
    ensures r.ipStats == (if ip in s.ipStats then s.ipStats else s.ipStats[ip := Stat({}, 0, now)])
  {
    if ip in s.ipStats then s else s.(ipStats := s.ipStats[ip := Stat({}, 0, now)])
  }

  function SizeBlock(s: State, cfg: Config, p: Packet, isp: string): (r: State)
    ensures r.ipStats == s.ipStats && r.eventCount == s.eventCount
    ensures r.lastEventTime == s.lastEventTime && r.monitoring == s.monitoring
    ensures p.src in s.suspicious || !SizeRule(cfg, p) ==> r.suspicious == s.suspicious && r.ipList == s.ipList
    ensures p.src !in s.suspicious && SizeRule(cfg, p) ==>
      r.suspicious == s.suspicious + {p.src} && r.ipList == s.ipList + [Entry(p.src, isp, LargePacket)]
  {
    if SizeRule(cfg, p) then Admit(s, p.src, isp, LargePacket) else s
  }

  function PortBlock(s: State, cfg: Config, p: Packet, isp: string): (r: State)
    requires p.src in s.ipStats
    ensures r.eventCount == s.eventCount
    ensures r.lastEventTime == s.lastEventTime && r.monitoring == s.monitoring
    ensures r.ipStats == (if cfg.portCheck
      then s.ipStats[p.src := s.ipStats[p.src].(ports := s.ipStats[p.src].ports + {p.dport})]
      else s.ipStats)
    ensures p.src in s.suspicious || !PortRule(cfg, r.ipStats[p.src].ports) ==>
      r.suspicious == s.suspicious && r.ipList == s.ipList
    ensures p.src !in s.suspicious && PortRule(cfg, r.ipStats[p.src].ports) ==>
      r.suspicious == s.suspicious + {p.src} && r.ipList == s.ipList + [Entry(p.src, isp, PortScan)]
  {
    if !cfg.portCheck then s
    else
      var info := s.ipStats[p.src];
      var s' := s.(ipStats := s.ipStats[p.src := info.(ports := info.ports + {p.dport})]);
      if |info.ports + {p.dport}| > cfg.portThresh then Admit(s', p.src, isp, PortScan) else s'
  }

  function RepeatBlock(s: State, cfg: Config, p: Packet, now: int, isp: string): (r: State)
    ensures r.ipStats == s.ipStats && r.monitoring == s.monitoring
    ensures r.eventCount == (if cfg.repeatCheck then s.eventCount[p.src := EventsSeen(s, p.src) + 1] else s.eventCount)
    ensures p.src in s.suspicious || !RepeatRule(cfg, EventsAfter(s, cfg, p), s.lastEventTime, now) ==>
      r.suspicious == s.suspicious && r.ipList == s.ipList && r.lastEventTime == s.lastEventTime
    ensures p.src !in s.suspicious && RepeatRule(cfg, EventsAfter(s, cfg, p), s.lastEventTime, now) ==>
      && r.suspicious == s.suspicious + {p.src}
      && r.ipList == s.ipList + [Entry(p.src, isp, RepeatedRequests)]
      && r.lastEventTime == now
  {
    if !cfg.repeatCheck then s
    else
      var n := EventsSeen(s, p.src) + 1;
      var s' := s.(eventCount := s.eventCount[p.src := n]);
      if n > cfg.repeatThresh && now - s'.lastEventTime < RepeatWindow && p.src !in s'.suspicious then
        Admit(s', p.src, isp, RepeatedRequests).(lastEventTime := now)
      else s'
  }

  /** `packet_handler`: one captured frame at clock reading `now`; `isp` is what the
      lookup answers should the frame's source be admitted. */
  function Step(s: State, cfg: Config, p: Packet, now: int, isp: string): (r: State)
    // frames without IP and TCP layers are ignored altogether
    ensures !p.hasIP || !p.hasTCP ==> r == s
    ensures r.monitoring == s.monitoring
    // statistics: one more packet, ports only with the port check on, first_seen once,
    // no other address touched
    ensures p.hasIP && p.hasTCP ==>
      r.ipStats == s.ipStats[p.src := Stat(PortsAfter(s, cfg, p), PacketsSeen(s, p.src) + 1, FirstSeenAfter(s, p, now))]
    // the repeat counter moves only with the repeat check on
    ensures p.hasIP && p.hasTCP ==>
      r.eventCount == (if cfg.repeatCheck then s.eventCount[p.src := EventsSeen(s, p.src) + 1] else s.eventCount)
    // at most one admission, for the first matching rule, and only of a new address
    ensures p.hasIP && p.hasTCP ==>
      if p.src in s.suspicious || FirstMatch(s, cfg, p, now).None? then
        r.suspicious == s.suspicious && r.ipList == s.ipList
      else
        && r.suspicious == s.suspicious + {p.src}
        && r.ipList == s.ipList + [Entry(p.src, isp, FirstMatch(s, cfg, p, now).value)]
    // the shared gate moves only when the repeat rule admits
    ensures r.lastEventTime ==
      (if p.hasIP && p.hasTCP && p.src !in s.suspicious && FirstMatch(s, cfg, p, now) == Some(RepeatedRequests)
       then now else s.lastEventTime)
  {
    HandleStats(s, cfg, p, now, isp);
    HandleAdmission(s, cfg, p, now, isp);
    Handle(s, cfg, p, now, isp)
  }

  /** The handler's body, block by block as the monitor runs it. */
  function Handle(s: State, cfg: Config, p: Packet, now: int, isp: string): State {
    if !p.hasIP || !p.hasTCP then s
    else
      var s0 := Touch(s, p.src, now);
      var s1 := SizeBlock(s0, cfg, p, isp);
      var s2 := PortBlock(s1, cfg, p, isp);
      var s3 := RepeatBlock(s2, cfg, p, now, isp);
      var info := s3.ipStats[p.src];
      s3.(ipStats := s3.ipStats[p.src := info.(count := info.count + 1)])
  }

  lemma HandleStats(s: State, cfg: Config, p: Packet, now: int, isp: string)
    ensures Handle(s, cfg, p, now, isp).monitoring == s.monitoring
    ensures p.hasIP && p.hasTCP ==>
      var r := Handle(s, cfg, p, now, isp);
      && r.ipStats == s.ipStats[p.src := Stat(PortsAfter(s, cfg, p), PacketsSeen(s, p.src) + 1, FirstSeenAfter(s, p, now))]
      && r.eventCount == (if cfg.repeatCheck then s.eventCount[p.src := EventsSeen(s, p.src) + 1] else s.eventCount)
  {
    if p.hasIP && p.hasTCP {
      HandlePorts(s, cfg, p, now, isp);
      HandleEvents(s, cfg, p, now, isp);
    }
  }

  /** Only the packet's source gains a packet, and a port when the port check is on. */
  lemma HandlePorts(s: State, cfg: Config, p: Packet, now: int, isp: string)
    requires p.hasIP && p.hasTCP
    ensures Handle(s, cfg, p, now, isp).ipStats ==
      s.ipStats[p.src := Stat(PortsAfter(s, cfg, p), PacketsSeen(s, p.src) + 1, FirstSeenAfter(s, p, now))]
  {
    var s0 := Touch(s, p.src, now);
    var s1 := SizeBlock(s0, cfg, p, isp);
    var s2 := PortBlock(s1, cfg, p, isp);
    var s3 := RepeatBlock(s2, cfg, p, now, isp);
    var seen := Stat(PortsAfter(s, cfg, p), PacketsSeen(s, p.src), FirstSeenAfter(s, p, now));
    StatsBeforeCount(s, cfg, p, now, isp);
    var m := s3.ipStats;
    assert m == s.ipStats[p.src := seen];
    assert Handle(s, cfg, p, now, isp).ipStats == m[p.src := m[p.src].(count := m[p.src].count + 1)];
  }

  /** The statistics once the size and port blocks have run, before the count moves. */
  lemma StatsBeforeCount(s: State, cfg: Config, p: Packet, now: int, isp: string)
    ensures
      var s1 := SizeBlock(Touch(s, p.src, now), cfg, p, isp);
      PortBlock(s1, cfg, p, isp).ipStats ==
        s.ipStats[p.src := Stat(PortsAfter(s, cfg, p), PacketsSeen(s, p.src), FirstSeenAfter(s, p, now))]
  {
    var s0 := Touch(s, p.src, now);
    var s1 := SizeBlock(s0, cfg, p, isp);
    assert s1.ipStats == s0.ipStats;
    assert s0.ipStats[p.src] == Stat(PortsSeen(s, p.src), PacketsSeen(s, p.src), FirstSeenAfter(s, p, now));
  }

  /** The repeat counter of the packet's source moves only with the repeat check on. */
  lemma HandleEvents(s: State, cfg: Config, p: Packet, now: int, isp: string)
    requires p.hasIP && p.hasTCP
    ensures Handle(s, cfg, p, now, isp).eventCount ==
      (if cfg.repeatCheck then s.eventCount[p.src := EventsSeen(s, p.src) + 1] else s.eventCount)
  {
    var s0 := Touch(s, p.src, now);
    var s1 := SizeBlock(s0, cfg, p, isp);
    var s2 := PortBlock(s1, cfg, p, isp);
    assert s2.eventCount == s.eventCount && EventsSeen(s2, p.src) == EventsSeen(s, p.src);
  }

  lemma HandleAdmission(s: State, cfg: Config, p: Packet, now: int, isp: string)
    ensures p.hasIP && p.hasTCP ==>
      var r := Handle(s, cfg, p, now, isp);
      var m := FirstMatch(s, cfg, p, now);
      && (if p.src in s.suspicious || m.None? then
            r.suspicious == s.suspicious && r.ipList == s.ipList
          else
            && r.suspicious == s.suspicious + {p.src}
            && r.ipList == s.ipList + [Entry(p.src, isp, m.value)])
      && r.lastEventTime == (if p.src !in s.suspicious && m == Some(RepeatedRequests) then now else s.lastEventTime)
  {
    if p.hasIP && p.hasTCP {
      var s0 := Touch(s, p.src, now);
      var s1 := SizeBlock(s0, cfg, p, isp);
      var s2 := PortBlock(s1, cfg, p, isp);
      var s3 := RepeatBlock(s2, cfg, p, now, isp);
      assert s2.ipStats[p.src].ports == PortsAfter(s, cfg, p) by {
        StatsBeforeCount(s, cfg, p, now, isp);
      }
      assert EventsAfter(s2, cfg, p) == EventsAfter(s, cfg, p);
    }
  }

  /** The packets of one capture, handled in arrival order under one configuration. */
  function Run(s: State, cfg: Config, evs: seq<Event>): State
    decreases |evs|
  {
    if evs == [] then s
    else Run(Step(s, cfg, evs[0].packet, evs[0].now, evs[0].isp), cfg, evs[1..])
  }

  // ------------------------------------------------------------ the session

  /** `__init__`: nothing seen yet; the repeat gate starts at construction time. */
  function Init(now: int): (r: State)
    ensures Wf(r) && !r.monitoring && r.lastEventTime == now
    ensures r.suspicious == {} && r.ipList == [] && r.ipStats == map[] && r.eventCount == map[]
  {
    State({}, [], map[], map[], now, false)
  }

  /** `start`: ignored while a capture runs; otherwise forgets the previous run, but
      not the repeat gate. */
  function Start(s: State): (r: State)
    ensures s.monitoring ==> r == s
    ensures !s.monitoring ==>
      && r.monitoring
      && r.suspicious == {} && r.ipList == []
      && r.ipStats == map[] && r.eventCount == map[]
      && r.lastEventTime == s.lastEventTime
    ensures Wf(s) ==> Wf(r)
  {
    if s.monitoring then s
    else s.(monitoring := true, suspicious := {}, ipStats := map[], eventCount := map[], ipList := [])
  }

  datatype Finish = Finish(state: State, reported: Option<nat>)

  /** `on_sniff_end`: leaves the Running state and reports how many addresses were
      flagged; does nothing when no capture was running. */
  function End(s: State): (r: Finish)
    ensures !r.state.monitoring
    ensures r.state == s.(monitoring := false)
    ensures r.reported == (if s.monitoring then Some(|s.suspicious|) else None)
  {
    if s.monitoring then Finish(s.(monitoring := false), Some(|s.suspicious|))
    else Finish(s, None)
  }

  // -------------------------------------------------------------- blocking

  /** The addresses `block_ips` hands to the firewall: the first field of each
      selected listbox line. */
  function BlockTargets(list: seq<Entry>, selection: seq<nat>): (r: seq<string>)
    requires forall k :: 0 <= k < |selection| ==> selection[k] < |list|
    ensures |r| == |selection|
    ensures forall k :: 0 <= k < |selection| && ' ' !in list[selection[k]].ip ==>
      r[k] == list[selection[k]].ip
  {
    DisplayRoundTripAll();
    seq(|selection|, k requires 0 <= k < |selection| => FirstField(Display(list[selection[k]]), Sep))
  }

  // ---------------------------------------------------------------- lemmas

  /** Parsing a listbox line back yields its address, whatever the ISP text, for
      an address without spaces (as every IPv4 or IPv6 text form is). */
  lemma DisplayRoundTrip(e: Entry)
    ensures ' ' !in e.ip ==> FirstField(Display(e), Sep) == e.ip
  {
    if ' ' !in e.ip {
      var line := Display(e);
      assert line == e.ip + Sep + (e.isp + Sep + ReasonText(e.reason));
      assert SepAt(line, |e.ip|, Sep) by {
        assert line[|e.ip|..|e.ip| + |Sep|] == Sep;
      }
      forall i | 0 <= i < |e.ip|
        ensures !SepAt(line, i, Sep)
      {
        assert line[i] == e.ip[i];
      }
      FirstFieldAt(line, Sep, |e.ip|);
      assert line[..|e.ip|] == e.ip;
    }
  }

  lemma DisplayRoundTripAll()
    ensures forall e: Entry :: ' ' !in e.ip ==> FirstField(Display(e), Sep) == e.ip
  {
    forall e: Entry
      ensures ' ' !in e.ip ==> FirstField(Display(e), Sep) == e.ip
    {
      DisplayRoundTrip(e);
    }
  }

  /** Having no " - " inside is not enough: an address ending in " -" loses its
      tail, because the separator occurrence straddles the address and the
      separator appended after it. */
  lemma StraddlingSeparator()
    ensures FirstField(Display(Entry("a -", "x", PortScan)), Sep) == "a"
  {
    var line := Display(Entry("a -", "x", PortScan));
    assert line[1..4] == Sep;
    assert !SepAt(line, 0, Sep) by { assert line[0] == 'a'; }
    FirstFieldAt(line, Sep, 1);
  }

  lemma {:induction false} DistinctCard<T>(xs: seq<T>)
    requires Distinct(xs)
    ensures |Elements(xs)| == |xs|
  {
    if xs != [] {
      var t := xs[1..];
      assert Elements(xs) == {xs[0]} + Elements(t);
      forall j | 0 <= j < |t|
        ensures t[j] != xs[0]
      {
        assert t[j] == xs[j + 1];
      }
      assert xs[0] !in Elements(t);
      assert Distinct(t) by {
        forall i, j | 0 <= i < j < |t|
          ensures t[i] != t[j]
        {
          assert t[i] == xs[i + 1] && t[j] == xs[j + 1];
        }
      }
      DistinctCard(t);
    }
  }

  /** The registry and the listbox grow together: as many lines as flagged addresses. */
  lemma ListMatchesRegistry(s: State)
    requires Wf(s)
    ensures |s.ipList| == |s.suspicious|
  {
    DistinctCard(Ips(s.ipList));
  }

  /** The number `on_sniff_end` reports is the number of listbox lines. */
  lemma EndReportsListLength(s: State)
    requires Wf(s) && s.monitoring
    ensures End(s).reported == Some(|s.ipList|)
  {
    ListMatchesRegistry(s);
  }

  lemma StepKeepsWf(s: State, cfg: Config, p: Packet, now: int, isp: string)
    requires Wf(s)
    ensures Wf(Step(s, cfg, p, now, isp))
  {
    var r := Step(s, cfg, p, now, isp);
    if r.ipList != s.ipList {
      var ips := Ips(s.ipList);
      assert Ips(r.ipList) == ips + [p.src];
      assert p.src !in Elements(ips);
      assert p.src !in ips;
      assert Elements(ips + [p.src]) == Elements(ips) + {p.src};
    }
  }

  /** No address is ever admitted twice, over any sequence of packets. */
  lemma {:induction false} RunKeepsWf(s: State, cfg: Config, evs: seq<Event>)
    requires Wf(s)
    ensures Wf(Run(s, cfg, evs))
    decreases |evs|
  {
    if evs != [] {
      StepKeepsWf(s, cfg, evs[0].packet, evs[0].now, evs[0].isp);
      RunKeepsWf(Step(s, cfg, evs[0].packet, evs[0].now, evs[0].isp), cfg, evs[1..]);
    }
  }

  /** Entries, once listed, never change; flags are never lost; statistics of an
      address are never dropped, its port set and packet count only grow and its
      first-seen time never moves. */
  lemma {:induction false} RunOnlyGrows(s: State, cfg: Config, evs: seq<Event>)
    ensures s.ipList <= Run(s, cfg, evs).ipList
    ensures s.suspicious <= Run(s, cfg, evs).suspicious
    ensures forall ip :: ip in s.ipStats ==>
      && ip in Run(s, cfg, evs).ipStats
      && s.ipStats[ip].ports <= Run(s, cfg, evs).ipStats[ip].ports
      && s.ipStats[ip].count <= Run(s, cfg, evs).ipStats[ip].count
      && s.ipStats[ip].firstSeen == Run(s, cfg, evs).ipStats[ip].firstSeen
    decreases |evs|
  {
    if evs != [] {
      RunOnlyGrows(Step(s, cfg, evs[0].packet, evs[0].now, evs[0].isp), cfg, evs[1..]);
    }
  }

  /** How many of the events are handled frames from `ip`. */
  function FramesFrom(evs: seq<Event>, ip: string): nat {
    if evs == [] then 0
    else
      var p := evs[0].packet;
      (if p.hasIP && p.hasTCP && p.src == ip then 1 else 0) + FramesFrom(evs[1..], ip)
  }

  /** `count` of an address goes up by exactly one per handled frame from it. */
  lemma {:induction false} RunCountsFrames(s: State, cfg: Config, evs: seq<Event>, ip: string)
    ensures PacketsSeen(Run(s, cfg, evs), ip) == PacketsSeen(s, ip) + FramesFrom(evs, ip)
    decreases |evs|
  {
    if evs != [] {
      RunCountsFrames(Step(s, cfg, evs[0].packet, evs[0].now, evs[0].isp), cfg, evs[1..], ip);
    }
  }

  /** The shared repeat gate, once more than the window behind every clock reading,
      stays shut: no later packet, from any address, is flagged for repeated
      requests, and the gate itself never moves again. */
  lemma {:induction false} RepeatGateStaysShut(s: State, cfg: Config, evs: seq<Event>)
    requires forall i :: 0 <= i < |evs| ==> evs[i].now - s.lastEventTime >= RepeatWindow
    ensures Run(s, cfg, evs).lastEventTime == s.lastEventTime
    ensures s.ipList <= Run(s, cfg, evs).ipList
    ensures forall e :: e in Run(s, cfg, evs).ipList[|s.ipList|..] ==> e.reason != RepeatedRequests
    decreases |evs|
  {
    if evs != [] {
      var e := evs[0];
      var s' := Step(s, cfg, e.packet, e.now, e.isp);
      var m := FirstMatch(s, cfg, e.packet, e.now);
      assert e.now - s.lastEventTime >= RepeatWindow;
      assert m != Some(RepeatedRequests);
      assert s'.lastEventTime == s.lastEventTime;
      var added := s'.ipList[|s.ipList|..];
      if s'.ipList == s.ipList {
        assert added == [];
      } else {
        assert added == [Entry(e.packet.src, e.isp, m.value)];
      }
      assert forall i :: 0 <= i < |evs[1..]| ==> evs[1..][i].now - s'.lastEventTime >= RepeatWindow by {
        forall i | 0 <= i < |evs[1..]|
          ensures evs[1..][i].now - s'.lastEventTime >= RepeatWindow
        {
          assert evs[1..][i] == evs[i + 1];
        }
      }
      RepeatGateStaysShut(s', cfg, evs[1..]);
      var r := Run(s', cfg, evs[1..]);
      assert r.ipList[|s.ipList|..] == added + r.ipList[|s'.ipList|..];
    }
  }

  /** A second run does not inherit the first one's flags, statistics or list, but
      it does inherit the repeat gate. */
  lemma RestartForgets(s: State, cfg: Config, evs: seq<Event>)
    ensures
      var first := Run(Start(s), cfg, evs);
      var second := Start(End(first).state);
      && second.monitoring
      && second.suspicious == {} && second.ipList == []
      && second.ipStats == map[] && second.eventCount == map[]
      && second.lastEventTime == first.lastEventTime
  {
  }

  /** With a port threshold of 3, three distinct ports leave an address unflagged and a
      fourth flags it for a port scan. */
  lemma PortScanAfterFourthPort(t0: int, isp: string)
    ensures
      var cfg := DefaultConfig;
      var s1 := Step(Start(Init(t0)), cfg, Packet(true, true, "B", 10, 100), t0 + 10, isp);
      var s2 := Step(s1, cfg, Packet(true, true, "B", 20, 100), t0 + 10, isp);
      var s3 := Step(s2, cfg, Packet(true, true, "B", 30, 100), t0 + 10, isp);
      var s4 := Step(s3, cfg, Packet(true, true, "B", 40, 100), t0 + 10, isp);
      && s3.ipList == [] && |PortsSeen(s3, "B")| == 3
      && s4.ipList == [Entry("B", isp, PortScan)]
  {
    var cfg := DefaultConfig;
    var s0 := Start(Init(t0));
    assert PortsSeen(s0, "B") == {} && EventsSeen(s0, "B") == 0;
    var s1 := PortStep(s0, cfg, "B", 10, {}, 0, t0 + 10, isp);
    var s2 := PortStep(s1, cfg, "B", 20, {10}, 1, t0 + 10, isp);
    var s3 := PortStep(s2, cfg, "B", 30, {10, 20}, 2, t0 + 10, isp);
    assert {10, 20} + {30} == {10, 20, 30};
    assert |{10, 20, 30}| == 3;
    assert {10, 20, 30} + {40} == {10, 20, 30, 40};
    assert |{10, 20, 30, 40}| == 4;
    var s4 := PortStep(s3, cfg, "B", 40, {10, 20, 30}, 3, t0 + 10, isp);
  }

  /** One small packet from an unflagged address under the default settings, with
      the address below the repeat threshold: it is flagged exactly when its port
      set grows past three. */
  lemma PortStep(s: State, cfg: Config, ip: string, port: nat, ports: set<nat>, n: nat, now: int, isp: string)
    returns (r: State)
    requires cfg == DefaultConfig && s.ipList == [] && s.suspicious == {}
    requires PortsSeen(s, ip) == ports && EventsSeen(s, ip) == n && n < 10
    ensures r == Step(s, cfg, Packet(true, true, ip, port, 100), now, isp)
    ensures |ports + {port}| <= 3 ==> r.ipList == [] && r.suspicious == {}
    ensures |ports + {port}| > 3 ==> r.ipList == [Entry(ip, isp, PortScan)]
    ensures PortsSeen(r, ip) == ports + {port} && EventsSeen(r, ip) == n + 1
  {
    r := Step(s, cfg, Packet(true, true, ip, port, 100), now, isp);
  }

  /** A packet one byte over the limit flags its source; one exactly at the limit
      does not. */
  lemma SizeLimitIsStrict(t0: int, isp: string)
    ensures
      var s0 := Start(Init(t0));
      var cfg := DefaultConfig;
      && Step(s0, cfg, Packet(true, true, "A", 80, 501), t0 + 10, isp).ipList == [Entry("A", isp, LargePacket)]
      && Step(s0, cfg, Packet(true, true, "A", 80, 500), t0 + 10, isp).ipList == []
  {
  }
}

=== FILE: daemon.dfy ===
/** The decision logic of the backup daemon: which backup directories the retention
    policy deletes, how a new backup directory is named, what `status` concludes from
    the PID file, and how the interactive configuration fills in its defaults. The
    file system, the process table and the terminal are inputs. */
module Daemon {
  import opened PyText

  const BackupPrefix: string := "backup_"
  const DefaultMaxBackups: int := 30
  const DefaultInterval: int := 3600
  const DefaultLogFile: string := "/home/joshi/backup_daemon.log"

  // ------------------------------------------------------------ retention

  /** One item of the backup directory listing, with its modification time. */
  datatype DirEntry = DirEntry(name: string, isDir: bool, mtime: int)

  /** Only directories named `backup_*` are subject to retention. */
  predicate IsCandidate(e: DirEntry) {
    e.isDir && StartsWith(e.name, BackupPrefix)
  }

  /** The candidates, in listing order. */
  function Candidates(entries: seq<DirEntry>): (r: seq<DirEntry>)
    ensures forall e :: e in r ==> IsCandidate(e) && e in entries
    ensures forall e :: IsCandidate(e) ==> multiset(r)[e] == multiset(entries)[e]
    ensures |r| <= |entries|
  {
    if entries == [] then []
    else
      var rest := Candidates(entries[1..]);
      assert entries == [entries[0]] + entries[1..];
      assert multiset(entries) == multiset{entries[0]} + multiset(entries[1..]);
      if IsCandidate(entries[0]) then [entries[0]] + rest else rest
  }

  /** The modification time, the ordering `cleanup_old_backups` uses. */
  function MTime(e: DirEntry): int {
    e.mtime
  }

  /** `xs` is ordered from the largest `key` down. */
  predicate NewestFirst(xs: seq<DirEntry>, key: DirEntry -> int) {
    forall i, j :: 0 <= i < j < |xs| ==> key(xs[i]) >= key(xs[j])
  }

  /** Inserts `x` before the first entry whose key is not larger than its own. */
  function Insert(x: DirEntry, xs: seq<DirEntry>, key: DirEntry -> int): (r: seq<DirEntry>)
    requires NewestFirst(xs, key)
    ensures NewestFirst(r, key)
    ensures multiset(r) == multiset(xs) + multiset{x}
    ensures forall y :: y in r ==> y in xs || y == x
  {
    if xs == [] then [x]
    else if key(x) >= key(xs[0]) then [x] + xs
    else
      var rest := Insert(x, xs[1..], key);
      assert xs == [xs[0]] + xs[1..];
      HeadIsNewest(xs, key);
      PrependNewest(xs[0], rest, key);
      [xs[0]] + rest
  }

  lemma HeadIsNewest(xs: seq<DirEntry>, key: DirEntry -> int)
    requires NewestFirst(xs, key) && xs != []
    ensures forall y :: y in xs ==> key(y) <= key(xs[0])
  {
  }

  lemma PrependNewest(h: DirEntry, xs: seq<DirEntry>, key: DirEntry -> int)
    requires NewestFirst(xs, key)
    requires forall y :: y in xs ==> key(y) <= key(h)
    ensures NewestFirst([h] + xs, key)
  {
    var r := [h] + xs;
    forall i, j | 0 <= i < j < |r|
      ensures key(r[i]) >= key(r[j])
    {
      assert r[j] == xs[j - 1];
      if i > 0 {
        assert r[i] == xs[i - 1];
      }
    }
  }

  /** `sort(key=..., reverse=True)`: largest key first, ties in their original order. */
  function SortNewestFirst(xs: seq<DirEntry>, key: DirEntry -> int): (r: seq<DirEntry>)
    ensures NewestFirst(r, key)
    ensures multiset(r) == multiset(xs)
  {
    if xs == [] then []
    else
      assert xs == [xs[0]] + xs[1..];
      Insert(xs[0], SortNewestFirst(xs[1..], key), key)
  }

  function Min(a: int, b: int): int {
    if a <= b then a else b
  }

  /** Python's `xs[k:]`: a negative `k` counts from the end and is clamped at 0. */
  function PySliceFrom<T>(xs: seq<T>, k: int): (r: seq<T>)
    ensures |r| <= |xs| && r == xs[|xs| - |r|..]
    ensures |r| == (if k >= 0 then (if k <= |xs| then |xs| - k else 0) else Min(-k, |xs|))
  {
    if k >= 0 then (if k <= |xs| then xs[k..] else [])
    else if -k <= |xs| then xs[|xs| + k..] else xs
  }

  /** What a cleanup leaves and what it deletes, in deletion order. */
  datatype Cleanup = Cleanup(kept: seq<DirEntry>, removed: seq<DirEntry>)

  /** The retention policy for an arbitrary ordering: sort the candidates by `key`,
      largest first, and delete everything after the first `maxBackups`. */
  function CleanupBy(entries: seq<DirEntry>, maxBackups: int, key: DirEntry -> int): (r: Cleanup)
    ensures NewestFirst(r.kept + r.removed, key)
    ensures multiset(r.kept + r.removed) == multiset(Candidates(entries))
    ensures forall e :: e in r.removed ==> e in entries && IsCandidate(e)
    ensures |Candidates(entries)| <= maxBackups ==> r.removed == []
    ensures 0 <= maxBackups < |Candidates(entries)| ==>
      |r.removed| == |Candidates(entries)| - maxBackups && |r.kept| == maxBackups
    ensures maxBackups < 0 ==> |r.removed| == Min(-maxBackups, |Candidates(entries)|)
    ensures forall i, j :: 0 <= i < |r.removed| && 0 <= j < |r.kept| ==>
      key(r.removed[i]) <= key(r.kept[j])
  {
    var backups := SortNewestFirst(Candidates(entries), key);
    CandidatesOfSorted(entries, backups);
    if |backups| > maxBackups then
      var removed := PySliceFrom(backups, maxBackups);
      var kept := backups[..|backups| - |removed|];
      SplitNewestFirst(backups, |kept|, key);
      Cleanup(kept, removed)
    else
      assert backups + [] == backups;
      Cleanup(backups, [])
  }

  /** `cleanup_old_backups`: the candidates ordered by modification time. */
  function CleanupOldBackups(entries: seq<DirEntry>, maxBackups: int): (r: Cleanup)
    // kept and removed together are the candidates, newest first
    ensures NewestFirst(r.kept + r.removed, MTime)
    ensures multiset(r.kept + r.removed) == multiset(Candidates(entries))
    // nothing but a candidate is ever deleted
    ensures forall e :: e in r.removed ==> e in entries && IsCandidate(e)
    // within the limit nothing is deleted; past it exactly the excess goes
    ensures |Candidates(entries)| <= maxBackups ==> r.removed == []
    ensures 0 <= maxBackups < |Candidates(entries)| ==>
      |r.removed| == |Candidates(entries)| - maxBackups && |r.kept| == maxBackups
    // a negative limit deletes that many of the oldest, as the slice does
    ensures maxBackups < 0 ==> |r.removed| == Min(-maxBackups, |Candidates(entries)|)
    // nothing deleted is newer than anything kept
    ensures forall i, j :: 0 <= i < |r.removed| && 0 <= j < |r.kept| ==>
      r.removed[i].mtime <= r.kept[j].mtime
  {
    CleanupBy(entries, maxBackups, MTime)
  }

  lemma CandidatesOfSorted(entries: seq<DirEntry>, backups: seq<DirEntry>)
    requires multiset(backups) == multiset(Candidates(entries))
    ensures forall e :: e in backups ==> e in entries && IsCandidate(e)
  {
    forall e | e in backups
      ensures e in entries && IsCandidate(e)
    {
      assert e in multiset(Candidates(entries));
    }
  }

  /** Cutting an ordered sequence leaves no element of the tail above any element of
      the head. */
  lemma SplitNewestFirst(xs: seq<DirEntry>, n: nat, key: DirEntry -> int)
    requires NewestFirst(xs, key) && n <= |xs|
    ensures xs[..n] + xs[n..] == xs
    ensures forall i, j :: 0 <= i < |xs| - n && 0 <= j < n ==> key(xs[n..][i]) <= key(xs[..n][j])
  {
    forall i, j | 0 <= i < |xs| - n && 0 <= j < n
      ensures key(xs[n..][i]) <= key(xs[..n][j])
    {
      assert xs[n..][i] == xs[n + i] && xs[..n][j] == xs[j];
    }
  }

  /** `backup_files` names each new backup directory after its timestamp. */
  function BackupName(stamp: string): (r: string)
    ensures StartsWith(r, BackupPrefix) && r[|BackupPrefix|..] == stamp
  {
    BackupPrefix + stamp
  }

  /** A freshly made backup is itself subject to retention. `copytree` gives it the
      modification time of the source directory (`copied`), so it is the strictly
      newest candidate only when the source directory changed since the previous
      backup; then the cleanup run right after it keeps it whenever the limit is at
      least one, wherever the listing puts it. A limit of zero deletes it at once. */
  lemma NewBackupSurvives(pre: seq<DirEntry>, post: seq<DirEntry>, stamp: string, copied: int, maxBackups: int)
    requires forall e :: e in pre + post && IsCandidate(e) ==> e.mtime < copied
    ensures
      var made := DirEntry(BackupName(stamp), true, copied);
      var r := CleanupOldBackups(pre + [made] + post, maxBackups);
      && IsCandidate(made)
      && (maxBackups >= 1 ==> made in r.kept)
      && (maxBackups == 0 ==> made in r.removed && r.kept == [])
  {
    var made := DirEntry(BackupName(stamp), true, copied);
    NewestSurvives(pre, post, made, maxBackups, MTime);
  }

  /** When the source directory has not changed, the new backup ties with the previous
      one, the stable sort keeps the listing order, and a limit of one deletes the
      backup that was just made. */
  lemma NewBackupDeletedOnTie()
    ensures
      var prev := DirEntry("backup_20250101000000", true, 7);
      var made := DirEntry(BackupName("20250101010000"), true, 7);
      CleanupOldBackups([prev, made], 1) == Cleanup([prev], [made])
  {
    var prev := DirEntry("backup_20250101000000", true, 7);
    var made := DirEntry(BackupName("20250101010000"), true, 7);
    var entries := [prev, made];
    assert IsCandidate(prev) && IsCandidate(made);
    assert entries[1..] == [made] && [made][1..] == [];
    assert Candidates(entries) == entries;
    assert SortNewestFirst([made], MTime) == [made];
    assert SortNewestFirst(entries, MTime) == entries;
  }

  /** The creation time a backup's name records (`backup_` and the `%Y%m%d%H%M%S`
      timestamp read as a number), or -1 for a name that records none. */
  function StampOf(e: DirEntry): int {
    var n := |BackupPrefix|;
    if StartsWith(e.name, BackupPrefix) && |e.name| > n && AllDigits(e.name[n..]) then
      DigitsValue(e.name[n..])
    else -1
  }

  /** The retention policy ordered by the timestamp in each backup's name, which
      `copytree` cannot overwrite: the newest backups by creation are kept. */
  function CleanupByStamp(entries: seq<DirEntry>, maxBackups: int): (r: Cleanup)
    ensures NewestFirst(r.kept + r.removed, StampOf)
    ensures multiset(r.kept + r.removed) == multiset(Candidates(entries))
    ensures forall e :: e in r.removed ==> e in entries && IsCandidate(e)
    ensures |Candidates(entries)| <= maxBackups ==> r.removed == []
    ensures 0 <= maxBackups < |Candidates(entries)| ==>
      |r.removed| == |Candidates(entries)| - maxBackups && |r.kept| == maxBackups
    ensures maxBackups < 0 ==> |r.removed| == Min(-maxBackups, |Candidates(entries)|)
    ensures forall i, j :: 0 <= i < |r.removed| && 0 <= j < |r.kept| ==>
      StampOf(r.removed[i]) <= StampOf(r.kept[j])
  {
    CleanupBy(entries, maxBackups, StampOf)
  }

  /** Ordered by name, the backup just made survives whatever modification time it
      was given and wherever the listing puts it, as long as its timestamp is later
      than every earlier backup's. */
  lemma NewBackupSurvivesByStamp(pre: seq<DirEntry>, post: seq<DirEntry>, stamp: string, copied: int, maxBackups: int)
    requires |stamp| > 0 && AllDigits(stamp)
    requires forall e :: e in pre + post && IsCandidate(e) ==> StampOf(e) < DigitsValue(stamp)
    ensures
      var made := DirEntry(BackupName(stamp), true, copied);
      var r := CleanupByStamp(pre + [made] + post, maxBackups);
      && (maxBackups >= 1 ==> made in r.kept)
      && (maxBackups == 0 ==> made in r.removed && r.kept == [])
  {
    var made := DirEntry(BackupName(stamp), true, copied);
    assert StampOf(made) == DigitsValue(stamp);
    NewestSurvives(pre, post, made, maxBackups, StampOf);
  }

  /** A candidate whose key is strictly above every other candidate's is kept by any
      positive limit and deleted only by a limit of zero, wherever it is listed. */
  lemma NewestSurvives(pre: seq<DirEntry>, post: seq<DirEntry>, made: DirEntry, maxBackups: int, key: DirEntry -> int)
    requires IsCandidate(made)
    requires forall e :: e in pre + post && IsCandidate(e) ==> key(e) < key(made)
    ensures
      var r := CleanupBy(pre + [made] + post, maxBackups, key);
      && (maxBackups >= 1 ==> made in r.kept)
      && (maxBackups == 0 ==> made in r.removed && r.kept == [])
  {
    var entries := pre + [made] + post;
    var r := CleanupBy(entries, maxBackups, key);
    var all := r.kept + r.removed;
    ListedCandidate(pre, post, made);
    InCleanup(entries, maxBackups, made, key);
    if maxBackups >= 1 {
      KeptNotEmpty(entries, maxBackups, made, key);
      OthersOlder(pre, post, made, all, key);
      UniqueNewestHeads(all, made, key);
      assert r.kept[0] == all[0];
    } else if maxBackups == 0 {
      ZeroLimitKeepsNothing(entries, made, key);
    }
  }

  lemma ListedCandidate(pre: seq<DirEntry>, post: seq<DirEntry>, e: DirEntry)
    requires IsCandidate(e)
    ensures e in Candidates(pre + [e] + post)
  {
    var entries := pre + [e] + post;
    assert entries[|pre|] == e;
    assert multiset(entries)[e] > 0;
    assert e in multiset(Candidates(entries));
  }

  /** Every candidate ends up either kept or deleted. */
  lemma InCleanup(entries: seq<DirEntry>, maxBackups: int, e: DirEntry, key: DirEntry -> int)
    requires e in Candidates(entries)
    ensures var r := CleanupBy(entries, maxBackups, key); e in r.kept + r.removed
  {
    var r := CleanupBy(entries, maxBackups, key);
    assert e in multiset(r.kept + r.removed);
  }

  /** A limit of zero deletes every candidate. */
  lemma ZeroLimitKeepsNothing(entries: seq<DirEntry>, e: DirEntry, key: DirEntry -> int)
    requires e in Candidates(entries)
    ensures var r := CleanupBy(entries, 0, key); r.kept == [] && e in r.removed
  {
    var r := CleanupBy(entries, 0, key);
    assert |Candidates(entries)| > 0;
    assert |r.kept| == 0;
    InCleanup(entries, 0, e, key);
    assert r.kept + r.removed == r.removed;
  }

  /** Every candidate other than the new backup has a smaller key. */
  lemma OthersOlder(pre: seq<DirEntry>, post: seq<DirEntry>, made: DirEntry, all: seq<DirEntry>, key: DirEntry -> int)
    requires forall e :: e in pre + post && IsCandidate(e) ==> key(e) < key(made)
    requires multiset(all) == multiset(Candidates(pre + [made] + post))
    ensures forall y :: y in all && y != made ==> key(y) < key(made)
  {
    forall y | y in all && y != made
      ensures key(y) < key(made)
    {
      assert y in multiset(Candidates(pre + [made] + post));
      assert y in pre + [made] + post;
      assert y in pre + post;
    }
  }

  /** A positive limit keeps at least one candidate when there is any. */
  lemma KeptNotEmpty(entries: seq<DirEntry>, maxBackups: int, e: DirEntry, key: DirEntry -> int)
    requires maxBackups >= 1 && e in Candidates(entries)
    ensures CleanupBy(entries, maxBackups, key).kept != []
  {
    var r := CleanupBy(entries, maxBackups, key);
    if |Candidates(entries)| > maxBackups {
      assert |r.kept| == maxBackups;
    } else {
      assert |r.kept + r.removed| > 0;
      assert r.removed == [];
    }
  }

  /** In an ordered sequence an element strictly above all others comes first. */
  lemma UniqueNewestHeads(all: seq<DirEntry>, made: DirEntry, key: DirEntry -> int)
    requires NewestFirst(all, key) && made in all
    requires forall y :: y in all && y != made ==> key(y) < key(made)
    ensures all[0] == made
  {
    var m :| 0 <= m < |all| && all[m] == made;
    assert key(all[0]) >= key(made);
  }

  // ----------------------------------------------------------------- status

  /** What reading the PID file yields. */
  datatype PidFile = Missing | Unreadable | Text(contents: string)

  datatype DaemonStatus = Stopped | Running(pid: int)

  /** The status printed, and whether the stale PID file is deleted. */
  datatype StatusReport = StatusReport(status: DaemonStatus, removePidFile: bool)

  /** `show_status`; `alive(pid)` is whether signalling `pid` with signal 0 succeeds. */
  function ShowStatus(pidFile: PidFile, alive: int -> bool): (r: StatusReport)
    ensures pidFile.Missing? ==> r == StatusReport(Stopped, false)
    ensures r.status.Running? <==>
      pidFile.Text? && ParseInt(pidFile.contents).Some? && alive(ParseInt(pidFile.contents).value)
    ensures r.status.Running? ==> r.status.pid == ParseInt(pidFile.contents).value
    ensures r.removePidFile <==> !pidFile.Missing? && r.status.Stopped?
  {
    match pidFile
    case Missing => StatusReport(Stopped, false)
    case Unreadable => StatusReport(Stopped, true)
    case Text(t) =>
      match ParseInt(t)
      case None => StatusReport(Stopped, true)
      case Some(pid) => if alive(pid) then StatusReport(Running(pid), false) else StatusReport(Stopped, true)
  }

  /** The PID file as the daemon writes it (`str(os.getpid())`) reads back as that
      process, RUNNING while it lives and STOPPED, with the file removed, once dead. */
  lemma StatusReadsWrittenPid(pid: int, alive: int -> bool)
    requires Showable(pid)
    ensures ShowStatus(Text(ShowInt(pid)), alive) ==
      (if alive(pid) then StatusReport(Running(pid), false) else StatusReport(Stopped, true))
  {
    ShowRoundTrip(pid);
  }

  // ---------------------------------------------------------- configuration

  datatype DaemonConfig = DaemonConfig(
    sourceDir: string, backupDir: string, intervalSeconds: int, maxBackups: int, logFile: string)

  /** `int(answer.strip() or default)`: a blank answer reads the default text;
      `None` is the `ValueError` that aborts the dialogue. Stripping first widens
      what is accepted: every `isspace()` character goes, not only those `int()`
      skips, and nothing `int()` accepts on its own reads differently. */
  function IntOrDefault(answer: string, default: string): (r: Option<int>)
    ensures AllSpace(answer) ==> r == ParseInt(default)
    ensures !AllSpace(answer) ==> r == ParseInt(Strip(answer, Whitespace))
    ensures ParseInt(answer).Some? ==> r == ParseInt(answer)
  {
    var t := Strip(answer, Whitespace);
    var r := if t == [] then ParseInt(default) else ParseInt(t);
    assert ParseInt(answer).Some? ==> r == ParseInt(answer) by {
      if ParseInt(answer).Some? {
        StripThenParse(answer);
      }
    }
    r
  }

  /** `s.strip() or default` */
  function TextOrDefault(answer: string, default: string): (r: string)
    ensures AllSpace(answer) ==> r == default
    ensures !AllSpace(answer) ==> r == Strip(answer, Whitespace)
  {
    var t := Strip(answer, Whitespace);
    if t == [] then default else t
  }

  /** The default answers of the two numeric prompts, as typed. */
  const DefaultIntervalText: string := "3600"
  const DefaultMaxBackupsText: string := "30"

  lemma DefaultsParse()
    ensures ParseInt(DefaultIntervalText) == Some(DefaultInterval)
    ensures ParseInt(DefaultMaxBackupsText) == Some(DefaultMaxBackups)
  {
    IntervalDigits();
    MaxBackupsDigits();
  }

  lemma IntervalDigits()
    ensures AllDigits(DefaultIntervalText) && DigitsValue(DefaultIntervalText) == 3600
  {
    var a := DefaultIntervalText;
    assert a[..3] == "360" && "360"[..2] == "36" && "36"[..1] == "3" && "3"[..0] == [];
    assert DigitsValue("3") == 3;
    assert DigitsValue("36") == 36;
    assert DigitsValue("360") == 360;
  }

  lemma MaxBackupsDigits()
    ensures AllDigits(DefaultMaxBackupsText) && DigitsValue(DefaultMaxBackupsText) == 30
  {
    var b := DefaultMaxBackupsText;
    assert b[..1] == "3" && "3"[..0] == [];
    assert DigitsValue("3") == 3;
  }

  /** `create_config`: the five answers, in prompt order, to the configuration
      written, or `None` when a number does not parse. */
  function CreateConfig(source: string, backup: string, interval: string, maxBackups: string, logFile: string)
    : (r: Option<DaemonConfig>)
    ensures r.Some? <==>
      IntOrDefault(interval, DefaultIntervalText).Some? && IntOrDefault(maxBackups, DefaultMaxBackupsText).Some?
    ensures r.Some? ==> r.value == DaemonConfig(
      Strip(source, Whitespace), Strip(backup, Whitespace),
      IntOrDefault(interval, DefaultIntervalText).value, IntOrDefault(maxBackups, DefaultMaxBackupsText).value,
      TextOrDefault(logFile, DefaultLogFile))
    // each blank answer takes its own default, whatever the others are
    ensures r.Some? && AllSpace(interval) ==> r.value.intervalSeconds == DefaultInterval
    ensures r.Some? && AllSpace(maxBackups) ==> r.value.maxBackups == DefaultMaxBackups
    ensures r.Some? && AllSpace(logFile) ==> r.value.logFile == DefaultLogFile
    ensures AllSpace(interval) && AllSpace(maxBackups) && AllSpace(logFile) ==>
      r == Some(DaemonConfig(Strip(source, Whitespace), Strip(backup, Whitespace), DefaultInterval, DefaultMaxBackups, DefaultLogFile))
    // a number typed as `int()` reads it is taken as typed
    ensures r.Some? && ParseInt(interval).Some? ==> Some(r.value.intervalSeconds) == ParseInt(interval)
    ensures r.Some? && ParseInt(maxBackups).Some? ==> Some(r.value.maxBackups) == ParseInt(maxBackups)
  {
    DefaultsParse();
    var i := IntOrDefault(interval, DefaultIntervalText);
    var m := IntOrDefault(maxBackups, DefaultMaxBackupsText);
    if i.None? || m.None? then None
    else Some(DaemonConfig(Strip(source, Whitespace), Strip(backup, Whitespace), i.value, m.value, TextOrDefault(logFile, DefaultLogFile)))
  }

  /** Typing both numbers back in, each with its own surrounding blanks, configures
      exactly those numbers. */
  lemma ConfigTakesTypedNumbers(
    source: string, backup: string, logFile: string,
    interval: int, preInterval: string, postInterval: string,
    maxBackups: int, preMax: string, postMax: string)
    requires Showable(interval) && Showable(maxBackups)
    requires AllSpace(preInterval) && AllSpace(postInterval)
    requires AllSpace(preMax) && AllSpace(postMax)
    ensures
      var i := preInterval + ShowInt(interval) + postInterval;
      var m := preMax + ShowInt(maxBackups) + postMax;
      var r := CreateConfig(source, backup, i, m, logFile);
      r.Some? && r.value.intervalSeconds == interval && r.value.maxBackups == maxBackups
  {
    var i := preInterval + ShowInt(interval) + postInterval;
    var m := preMax + ShowInt(maxBackups) + postMax;
    TypedNumber(interval, preInterval, postInterval, DefaultIntervalText);
    TypedNumber(maxBackups, preMax, postMax, DefaultMaxBackupsText);
    ConfigFromNumbers(source, backup, i, m, logFile);
  }

  lemma ConfigFromNumbers(source: string, backup: string, interval: string, maxBackups: string, logFile: string)
    requires IntOrDefault(interval, DefaultIntervalText).Some? && IntOrDefault(maxBackups, DefaultMaxBackupsText).Some?
    ensures
      var r := CreateConfig(source, backup, interval, maxBackups, logFile);
      r.Some? && r.value.intervalSeconds == IntOrDefault(interval, DefaultIntervalText).value
      && r.value.maxBackups == IntOrDefault(maxBackups, DefaultMaxBackupsText).value
  {
  }

  /** Any `isspace()` padding around a number is stripped before `int()` reads it. */
  lemma TypedNumber(n: int, pre: string, post: string, default: string)
    requires Showable(n)
    requires AllSpace(pre) && AllSpace(post)
    ensures IntOrDefault(pre + ShowInt(n) + post, default) == Some(n)
  {
    var s := pre + ShowInt(n) + post;
    ShowIntStartsSolid(n);
    assert Strip(s, Whitespace) == ShowInt(n) by {
      StripPadded(pre, ShowInt(n), post, Whitespace);
    }
    ShowRoundTrip(n);
    assert s[|pre|] == ShowInt(n)[0];
    NotAllIn(s, |pre|, Whitespace);
  }
}

=== FILE: expenses.dfy ===
/** The expense report exercise: each user's expenses are summed, users whose total
    is strictly above 300 are kept, each kept user is annotated with the total, and
    the totals are added up with a reduce that starts from 0. */
module Expenses {

  /** A user record, `{"name": ..., "expenses": [...]}`. */
  datatype User = User(name: string, expenses: seq<int>)

  /** `{**u, "total_expenses": t}`: the user's own fields plus the total. */
  datatype UserWithTotal = UserWithTotal(name: string, expenses: seq<int>, totalExpenses: int)

  const Threshold: int := 300

  /** The arithmetic sum of `xs`, the reference every other total is compared with. */
  function Sum(xs: seq<int>): int {
    if xs == [] then 0 else xs[0] + Sum(xs[1..])
  }

  lemma {:induction false} SumAppend(xs: seq<int>, ys: seq<int>)
    ensures Sum(xs + ys) == Sum(xs) + Sum(ys)
  {
    if xs != [] {
      assert (xs + ys)[0] == xs[0] && (xs + ys)[1..] == xs[1..] + ys;
      SumAppend(xs[1..], ys);
    } else {
      assert xs + ys == ys;
    }
  }

  /** Python's `sum`: a left-to-right running total starting at 0. */
  function TotalExpenses(expenses: seq<int>): (r: int)
    ensures r == Sum(expenses)
  {
    FoldSumIsSum(0, expenses);
    FoldSum(0, expenses)
  }

  /** Adds `xs` into the running total `acc` from left to right. */
  function FoldSum(acc: int, xs: seq<int>): int
    decreases |xs|
  {
    if xs == [] then acc else FoldSum(acc + xs[0], xs[1..])
  }

  lemma {:induction false} FoldSumIsSum(acc: int, xs: seq<int>)
    ensures FoldSum(acc, xs) == acc + Sum(xs)
    decreases |xs|
  {
    if xs != [] {
      FoldSumIsSum(acc + xs[0], xs[1..]);
    }
  }

  /** The same running total as a loop over the list. */
  method TotalExpensesLoop(expenses: seq<int>) returns (total: int)
    ensures total == Sum(expenses)
  {
    total := 0;
    var i := 0;
    while i < |expenses|
      invariant 0 <= i <= |expenses|
      invariant total == Sum(expenses[..i])
    {
      SumAppend(expenses[..i], [expenses[i]]);
      assert expenses[..i + 1] == expenses[..i] + [expenses[i]];
      total := total + expenses[i];
      i := i + 1;
    }
    assert expenses[..i] == expenses;
  }

  /** The filter's condition; a total of exactly 300 does not pass. */
  predicate Kept(u: User) {
    TotalExpenses(u.expenses) > Threshold
  }

  /** `list(filter(lambda u: total_expenses(u["expenses"]) > 300, users))` */
  function FilterUsers(users: seq<User>): (r: seq<User>)
    ensures |r| <= |users|
    ensures forall u :: u in r ==> u in users && Sum(u.expenses) > Threshold
  {
    if users == [] then []
    else
      var rest := FilterUsers(users[1..]);
      assert forall u :: u in users[1..] ==> u in users;
      KeepOne(users[0]) + rest
  }

  /** What the filter makes of a single user. */
  function KeepOne(u: User): (r: seq<User>)
    ensures r == [u] || r == []
    ensures r == [u] <==> Sum(u.expenses) > Threshold
  {
    if Kept(u) then [u] else []
  }

  /** The filter keeps every user above the threshold as often as it occurs, and
      drops every other user. */
  lemma {:induction false} FilterContents(users: seq<User>)
    ensures forall u ::
      multiset(FilterUsers(users))[u] == (if Sum(u.expenses) > Threshold then multiset(users)[u] else 0)
  {
    if users != [] {
      FilterContents(users[1..]);
      assert users == [users[0]] + users[1..];
      assert multiset(users) == multiset{users[0]} + multiset(users[1..]);
    }
  }

  /** A user passes the filter exactly when they are listed and spent more than 300. */
  lemma FilterMembership(users: seq<User>, u: User)
    ensures u in FilterUsers(users) <==> u in users && Sum(u.expenses) > Threshold
  {
    FilterContents(users);
    assert u in FilterUsers(users) <==> multiset(FilterUsers(users))[u] > 0;
  }

  /** Filtering keeps the relative order: it distributes over concatenation. */
  lemma {:induction false} FilterAppend(xs: seq<User>, ys: seq<User>)
    ensures FilterUsers(xs + ys) == FilterUsers(xs) + FilterUsers(ys)
  {
    if xs == [] {
      assert xs + ys == ys;
    } else {
      var h, t := xs[0], xs[1..];
      assert (xs + ys)[0] == h && (xs + ys)[1..] == t + ys;
      var ft, fy := FilterUsers(t), FilterUsers(ys);
      assert FilterUsers(xs + ys) == KeepOne(h) + FilterUsers(t + ys);
      FilterAppend(t, ys);
      assert KeepOne(h) + (ft + fy) == (KeepOne(h) + ft) + fy;
    }
  }

  function WithTotal(u: User): UserWithTotal {
    UserWithTotal(u.name, u.expenses, TotalExpenses(u.expenses))
  }

  /** The original record, with the added field dropped. */
  function WithoutTotal(w: UserWithTotal): User {
    User(w.name, w.expenses)
  }

  /** `list(map(lambda u: {**u, "total_expenses": ...}, filtered_users))` */
  function AddTotals(users: seq<User>): (r: seq<UserWithTotal>)
    ensures |r| == |users|
    ensures forall i :: 0 <= i < |r| ==>
      WithoutTotal(r[i]) == users[i] && r[i].totalExpenses == Sum(users[i].expenses)
    ensures forall w :: w in r ==> WithoutTotal(w) in users && w.totalExpenses == Sum(w.expenses)
  {
    seq(|users|, i requires 0 <= i < |users| => WithTotal(users[i]))
  }

  /** The totals of annotated users, in order. */
  function Totals(ws: seq<UserWithTotal>): (r: seq<int>)
    ensures |r| == |ws| && forall i :: 0 <= i < |ws| ==> r[i] == ws[i].totalExpenses
  {
    if ws == [] then [] else [ws[0].totalExpenses] + Totals(ws[1..])
  }

  /** `reduce(lambda acc, u: acc + u["total_expenses"], users_with_total, 0)` */
  function OverallExpenses(ws: seq<UserWithTotal>): (r: int)
    ensures ws == [] ==> r == 0
  {
    ReduceTotals(0, ws)
  }

  function ReduceTotals(acc: int, ws: seq<UserWithTotal>): int
    decreases |ws|
  {
    if ws == [] then acc else ReduceTotals(acc + ws[0].totalExpenses, ws[1..])
  }

  lemma {:induction false} ReduceTotalsIsSum(acc: int, ws: seq<UserWithTotal>)
    ensures ReduceTotals(acc, ws) == acc + Sum(Totals(ws))
    decreases |ws|
  {
    if ws != [] {
      ReduceTotalsIsSum(acc + ws[0].totalExpenses, ws[1..]);
    }
  }

  /** The reduce adds up exactly the totals it is given; with none it yields 0. */
  lemma OverallIsSumOfTotals(ws: seq<UserWithTotal>)
    ensures OverallExpenses(ws) == Sum(Totals(ws))
  {
    ReduceTotalsIsSum(0, ws);
  }

  /** The combined spending of a list of users, user by user. */
  function Spending(users: seq<User>): int {
    if users == [] then 0 else Sum(users[0].expenses) + Spending(users[1..])
  }

  /** The whole script: the annotated users it prints and the overall total. */
  datatype Report = Report(usersWithTotal: seq<UserWithTotal>, overall: int)

  function Script(users: seq<User>): (r: Report)
    ensures |r.usersWithTotal| <= |users|
    ensures forall w :: w in r.usersWithTotal ==> WithoutTotal(w) in users && w.totalExpenses > Threshold
  {
    var ws := AddTotals(FilterUsers(users));
    Report(ws, OverallExpenses(ws))
  }

  /** Reducing over annotated users adds up exactly their expenses. */
  lemma {:induction false} ReduceAnnotated(acc: int, users: seq<User>)
    ensures ReduceTotals(acc, AddTotals(users)) == acc + Spending(users)
    decreases |users|
  {
    if users != [] {
      var ws := AddTotals(users);
      assert ws[1..] == AddTotals(users[1..]);
      ReduceAnnotated(acc + ws[0].totalExpenses, users[1..]);
    }
  }

  /** The overall figure is the spending of the users that passed the filter, and
      0 when nobody did. */
  lemma ScriptOverallIsKeptSpending(users: seq<User>)
    ensures Script(users).overall == Spending(FilterUsers(users))
  {
    ReduceAnnotated(0, FilterUsers(users));
  }

  /** Every kept user spent more than 300, so the overall exceeds 300 per kept user. */
  lemma {:induction false} OverallExceedsThreshold(users: seq<User>)
    ensures Script(users).overall >= (Threshold + 1) * |Script(users).usersWithTotal|
  {
    var ws := Script(users).usersWithTotal;
    OverallIsSumOfTotals(ws);
    TotalsAbove(ws);
  }

  lemma {:induction false} TotalsAbove(ws: seq<UserWithTotal>)
    requires forall w :: w in ws ==> w.totalExpenses > Threshold
    ensures Sum(Totals(ws)) >= (Threshold + 1) * |ws|
  {
    if ws != [] {
      assert ws[0] in ws;
      TotalsAbove(ws[1..]);
    }
  }

  const SampleUsers: seq<User> := [
    User("Alice", [100, 50, 75, 200]),
    User("Bob", [50, 75, 80, 100]),
    User("Charlie", [200, 300, 50, 150]),
    User("David", [100, 200, 300, 400])
  ]

  /** On the script's own data all four users pass and the overall total is 2430. */
  lemma SampleReport()
    ensures Script(SampleUsers).usersWithTotal == AddTotals(SampleUsers)
    ensures Script(SampleUsers).overall == 2430
  {
    SampleSpending();
    AllKept(SampleUsers);
    ScriptOverallIsKeptSpending(SampleUsers);
  }

  lemma SampleSpending()
    ensures forall i :: 0 <= i < |SampleUsers| ==> Sum(SampleUsers[i].expenses) > Threshold
    ensures Spending(SampleUsers) == 2430
  {
    Sum4(100, 50, 75, 200);
    Sum4(50, 75, 80, 100);
    Sum4(200, 300, 50, 150);
    Sum4(100, 200, 300, 400);
    Spending4(SampleUsers[0], SampleUsers[1], SampleUsers[2], SampleUsers[3]);
  }

  lemma Spending4(a: User, b: User, c: User, d: User)
    ensures Spending([a, b, c, d]) == Sum(a.expenses) + Sum(b.expenses) + Sum(c.expenses) + Sum(d.expenses)
  {
    assert [a, b, c, d][1..] == [b, c, d];
    assert [b, c, d][1..] == [c, d];
    assert [c, d][1..] == [d];
    assert [d][1..] == [];
    assert Spending([d]) == Sum(d.expenses);
    assert Spending([c, d]) == Sum(c.expenses) + Sum(d.expenses);
  }

  lemma Sum4(a: int, b: int, c: int, d: int)
    ensures Sum([a, b, c, d]) == a + b + c + d
  {
    assert [a, b, c, d][1..] == [b, c, d];
    assert [b, c, d][1..] == [c, d];
    assert [c, d][1..] == [d];
    assert [d][1..] == [];
    assert Sum([d]) == d;
    assert Sum([c, d]) == c + d;
    assert Sum([b, c, d]) == b + c + d;
  }

  /** When everybody spent more than 300 the filter keeps the whole list. */
  lemma {:induction false} AllKept(users: seq<User>)
    requires forall i :: 0 <= i < |users| ==> Sum(users[i].expenses) > Threshold
    ensures FilterUsers(users) == users
  {
    if users != [] {
      AllKept(users[1..]);
      assert users == [users[0]] + users[1..];
    }
  }
}

=== FILE: py_text.dfy ===
/** Models of the few Python built-ins the detector and the backup daemon rely on:
    `str.strip`, `str.startswith`, `str.split(sep)[0]`, `int(str)` and `str(int)`.
    Strings are sequences of Unicode code points, as Python's `str` is. */
module PyText {

  datatype Option<T> = None | Some(value: T)

  /** The characters for which Python's `str.isspace()` holds; `strip()` without an
      argument discards them at either end of a string. */
  const Whitespace: set<char> := {
    ' ', '\t', '\n', '\r', '\U{B}', '\U{C}', '\U{1C}', '\U{1D}', '\U{1E}', '\U{1F}',
    '\U{85}', '\U{A0}', '\U{1680}', '\U{2000}', '\U{2001}', '\U{2002}', '\U{2003}',
    '\U{2004}', '\U{2005}', '\U{2006}', '\U{2007}', '\U{2008}', '\U{2009}', '\U{200A}',
    '\U{2028}', '\U{2029}', '\U{202F}', '\U{205F}', '\U{3000}'
  }

  /** The characters `int()` skips around a number. It maps every non-ASCII space to
      ' ' and then skips only the ASCII spaces ' ', '\t', '\n', '\v', '\f' and '\r',
      so the four ASCII separators U+001C..U+001F, which `isspace()` accepts, are
      rejected. */
  const IntWhitespace: set<char> := {
    ' ', '\t', '\n', '\r', '\U{B}', '\U{C}',
    '\U{85}', '\U{A0}', '\U{1680}', '\U{2000}', '\U{2001}', '\U{2002}', '\U{2003}',
    '\U{2004}', '\U{2005}', '\U{2006}', '\U{2007}', '\U{2008}', '\U{2009}', '\U{200A}',
    '\U{2028}', '\U{2029}', '\U{202F}', '\U{205F}', '\U{3000}'
  }

  lemma IntWhitespaceIsSeparatorFree()
    ensures IntWhitespace == Whitespace - {'\U{1C}', '\U{1D}', '\U{1E}', '\U{1F}'}
  {
  }

  /** `int()` refuses decimal text of more than this many digits, and `str()` refuses
      to produce it (the interpreter's default `int_max_str_digits`). */
  const MaxStrDigits: nat := 4300

  /** Every character of `s` is in `ws`. */
  predicate AllIn(s: string, ws: set<char>)
    decreases |s|
  {
    s == [] || (s[0] in ws && AllIn(s[1..], ws))
  }

  predicate IsSpace(c: char) {
    c in Whitespace
  }

  predicate AllSpace(s: string) {
    AllIn(s, Whitespace)
  }

  lemma {:induction false} AllInJoin(a: string, b: string, ws: set<char>)
    ensures AllIn(a + b, ws) <==> AllIn(a, ws) && AllIn(b, ws)
    decreases |a|
  {
    if a == [] {
      assert a + b == b;
    } else {
      assert (a + b)[0] == a[0] && (a + b)[1..] == a[1..] + b;
      AllInJoin(a[1..], b, ws);
    }
  }

  /** A character outside `ws` anywhere in `s` falsifies `AllIn(s, ws)`. */
  lemma {:induction false} NotAllIn(s: string, i: nat, ws: set<char>)
    requires i < |s| && s[i] !in ws
    ensures !AllIn(s, ws)
  {
    if i > 0 {
      assert s[1..][i - 1] == s[i];
      NotAllIn(s[1..], i - 1, ws);
    }
  }

  /** `AllIn` read from the end of the text. */
  lemma LastIn(s: string, ws: set<char>)
    requires s != []
    ensures AllIn(s, ws) <==> AllIn(s[..|s| - 1], ws) && s[|s| - 1] in ws
  {
    var c := s[|s| - 1];
    assert s == s[..|s| - 1] + [c];
    AllInJoin(s[..|s| - 1], [c], ws);
    assert [c][1..] == [];
  }

  /** `s.lstrip(chars)`: the suffix of `s` that starts at its first character outside `ws`. */
  function TrimStart(s: string, ws: set<char>): (r: string)
    ensures |r| <= |s| && r == s[|s| - |r|..]
    ensures AllIn(s[..|s| - |r|], ws)
    ensures |r| > 0 ==> r[0] !in ws
  {
    if |s| > 0 && s[0] in ws then
      var r := TrimStart(s[1..], ws);
      assert s[..|s| - |r|][0] == s[0] && s[..|s| - |r|][1..] == s[1..][..|s| - 1 - |r|];
      r
    else s
  }

  /** `s.rstrip(chars)`: the prefix of `s` that ends at its last character outside `ws`. */
  function TrimEnd(s: string, ws: set<char>): (r: string)
    ensures |r| <= |s| && r == s[..|r|]
    ensures AllIn(s[|r|..], ws)
    ensures |r| > 0 ==> r[|r| - 1] !in ws
  {
    if |s| > 0 && s[|s| - 1] in ws then
      var r := TrimEnd(s[..|s| - 1], ws);
      var u := s[|r|..];
      assert u[..|u| - 1] == s[..|s| - 1][|r|..] && u[|u| - 1] == s[|s| - 1];
      LastIn(u, ws);
      r
    else s
  }

  /** `s.strip(chars)`; `s.strip()` is `Strip(s, Whitespace)`. */
  function Strip(s: string, ws: set<char>): (r: string)
    ensures |r| <= |s|
    ensures r == [] <==> AllIn(s, ws)
    ensures |r| > 0 ==> r[0] !in ws && r[|r| - 1] !in ws
  {
    TrimmedEmpty(s, ws);
    TrimEnd(TrimStart(s, ws), ws)
  }

  /** The stripped text is a slice of `s` with only characters of `ws` cut away on
      either side. */
  lemma StripSlice(s: string, ws: set<char>)
    ensures IsSliceOf(Strip(s, ws), s, ws)
  {
    var t := TrimStart(s, ws);
    var r := Strip(s, ws);
    assert r == TrimEnd(t, ws);
    var i := TrimmedOffsets(s, ws, t, r);
    IsSlice(s, r, i, ws);
  }

  /** `r` is `s` with only characters of `ws` cut away on either side. */
  predicate IsSliceOf(r: string, s: string, ws: set<char>) {
    exists i :: 0 <= i <= |s| - |r| && r == s[i..i + |r|] && AllIn(s[..i], ws) && AllIn(s[i + |r|..], ws)
  }

  lemma IsSlice(s: string, r: string, i: nat, ws: set<char>)
    requires i + |r| <= |s| && r == s[i..i + |r|]
    requires AllIn(s[..i], ws) && AllIn(s[i + |r|..], ws)
    ensures IsSliceOf(r, s, ws)
  {
    assert 0 <= i <= |s| - |r| && r == s[i..i + |r|] && AllIn(s[..i], ws) && AllIn(s[i + |r|..], ws);
  }

  /** Where `r`, the stripped `s`, starts inside `s`, and what surrounds it. */
  lemma TrimmedOffsets(s: string, ws: set<char>, t: string, r: string) returns (i: nat)
    requires t == TrimStart(s, ws) && r == TrimEnd(t, ws)
    ensures i + |r| <= |s| && r == s[i..i + |r|]
    ensures AllIn(s[..i], ws)
    ensures AllIn(s[i + |r|..], ws)
  {
    i := |s| - |t|;
    SliceOfSuffix(s, t, r);
  }

  lemma SliceOfSuffix(s: string, t: string, r: string)
    requires |t| <= |s| && t == s[|s| - |t|..]
    requires |r| <= |t| && r == t[..|r|]
    ensures var i := |s| - |t|; r == s[i..i + |r|] && s[i + |r|..] == t[|r|..]
  {
  }

  lemma TrimmedEmpty(s: string, ws: set<char>)
    ensures TrimEnd(TrimStart(s, ws), ws) == [] <==> AllIn(s, ws)
  {
    TrimStartEmpty(s, ws);
    TrimEndEmpty(TrimStart(s, ws), ws);
  }

  lemma {:induction false} TrimStartEmpty(s: string, ws: set<char>)
    ensures TrimStart(s, ws) == [] <==> AllIn(s, ws)
  {
    if s != [] && s[0] in ws {
      TrimStartEmpty(s[1..], ws);
    }
  }

  lemma {:induction false} TrimEndEmpty(s: string, ws: set<char>)
    ensures TrimEnd(s, ws) == [] <==> AllIn(s, ws)
  {
    if s != [] && s[|s| - 1] in ws {
      TrimEndEmpty(s[..|s| - 1], ws);
      LastIn(s, ws);
    } else if s != [] {
      LastIn(s, ws);
    }
  }

  /** Padding made only of characters of `ws` is exactly what stripping removes. */
  lemma {:induction false} StripPadded(pre: string, t: string, post: string, ws: set<char>)
    requires AllIn(pre, ws) && AllIn(post, ws)
    requires |t| > 0 && t[0] !in ws && t[|t| - 1] !in ws
    ensures Strip(pre + t + post, ws) == t
  {
    var u := t + post;
    assert u[0] == t[0];
    assert pre + t + post == pre + u;
    StartTrimmed(pre, u, ws);
    EndTrimmed(t, post, ws);
  }

  /** Text with no character of `ws` at either end is left alone. */
  lemma StripTrimmed(t: string, ws: set<char>)
    requires |t| > 0 && t[0] !in ws && t[|t| - 1] !in ws
    ensures Strip(t, ws) == t
  {
    assert TrimStart(t, ws) == t;
  }

  /** Stripping twice is stripping once. */
  lemma StripIdempotent(s: string, ws: set<char>)
    ensures Strip(Strip(s, ws), ws) == Strip(s, ws)
  {
    if Strip(s, ws) != [] {
      StripTrimmed(Strip(s, ws), ws);
    }
  }

  lemma {:induction false} StartTrimmed(pre: string, u: string, ws: set<char>)
    requires AllIn(pre, ws)
    requires |u| > 0 && u[0] !in ws
    ensures TrimStart(pre + u, ws) == u
    decreases |pre|
  {
    if pre != [] {
      assert (pre + u)[1..] == pre[1..] + u;
      StartTrimmed(pre[1..], u, ws);
    }
  }

  lemma {:induction false} EndTrimmed(t: string, post: string, ws: set<char>)
    requires AllIn(post, ws)
    requires |t| > 0 && t[|t| - 1] !in ws
    ensures TrimEnd(t + post, ws) == t
    decreases |post|
  {
    if post != [] {
      assert (t + post)[..|t + post| - 1] == t + post[..|post| - 1];
      LastIn(post, ws);
      EndTrimmed(t, post[..|post| - 1], ws);
    } else {
      assert t + post == t;
    }
  }

  /** `s.startswith(prefix)` */
  predicate StartsWith(s: string, prefix: string) {
    prefix <= s
  }

  /** `sep` occurs in `s` starting at index `i`. */
  predicate SepAt(s: string, i: int, sep: string) {
    0 <= i && i + |sep| <= |s| && s[i..i + |sep|] == sep
  }

  /** `s.split(sep)[0]`: the text before the first occurrence of `sep`, or all of `s`
      when `sep` does not occur. Python refuses an empty separator. */
  function FirstField(s: string, sep: string): (r: string)
    requires |sep| > 0
    ensures r <= s
    ensures r == s || SepAt(s, |r|, sep)
    ensures forall i :: 0 <= i < |r| ==> !SepAt(s, i, sep)
    decreases |s|
  {
    if |s| < |sep| then s
    else if s[..|sep|] == sep then []
    else
      var rest := FirstField(s[1..], sep);
      assert !SepAt(s, 0, sep);
      assert forall i :: 0 < i <= |rest| ==> !SepAt(s, i, sep) by {
        forall i | 0 < i <= |rest|
          ensures !SepAt(s, i, sep)
        {
          assert !SepAt(s[1..], i - 1, sep);
          if i + |sep| <= |s| {
            assert s[i..i + |sep|] == s[1..][i - 1..i - 1 + |sep|];
          }
        }
      }
      assert [s[0]] + rest == s || SepAt(s, |rest| + 1, sep) by {
        if rest == s[1..] {
          assert s == [s[0]] + s[1..];
        } else {
          assert s[|rest| + 1..|rest| + 1 + |sep|] == s[1..][|rest|..|rest| + |sep|];
        }
      }
      [s[0]] + rest
  }

  /** The text of `s` before index `k` is the first field exactly when `sep` occurs at
      `k` and nowhere earlier. */
  lemma {:induction false} FirstFieldAt(s: string, sep: string, k: nat)
    requires |sep| > 0
    requires SepAt(s, k, sep)
    requires forall i :: 0 <= i < k ==> !SepAt(s, i, sep)
    ensures FirstField(s, sep) == s[..k]
  {
    var r := FirstField(s, sep);
    assert k < |s|;
    assert r != s;
    assert SepAt(s, |r|, sep);
    assert |r| == k;
  }

  predicate IsDigit(c: char) {
    '0' <= c <= '9'
  }

  predicate AllDigits(s: string) {
    forall i :: 0 <= i < |s| ==> IsDigit(s[i])
  }

  function DigitValue(c: char): (d: nat)
    requires IsDigit(c)
    ensures d < 10
  {
    c as int - '0' as int
  }

  function DigitChar(d: nat): (c: char)
    requires d < 10
    ensures IsDigit(c) && DigitValue(c) == d
  {
    ('0' as int + d) as char
  }

  /** The value of a run of decimal digits, most significant first. */
  function DigitsValue(s: string): nat
    requires AllDigits(s)
  {
    if s == [] then 0 else DigitsValue(s[..|s| - 1]) * 10 + DigitValue(s[|s| - 1])
  }

  /** The decimal digits of `n` without leading zeros. */
  function Digits(n: nat): (r: string)
    ensures |r| > 0 && AllDigits(r)
    ensures |r| > 1 ==> r[0] != '0'
  {
    if n < 10 then [DigitChar(n)] else Digits(n / 10) + [DigitChar(n % 10)]
  }

  function Abs(n: int): nat {
    if n < 0 then -n else n
  }

  /** `str(n)` */
  function ShowInt(n: int): string {
    if n < 0 then "-" + Digits(-n) else Digits(n)
  }

  /** `str(n)` succeeds, and so does `int` on its result: at most 4300 digits. */
  predicate Showable(n: int) {
    |Digits(Abs(n))| <= MaxStrDigits
  }

  /** The text of a number starts with a sign or a digit, never with whitespace. */
  lemma ShowIntStartsSolid(n: int)
    ensures |ShowInt(n)| > 0 && !IsSpace(ShowInt(n)[0]) && !IsSpace(ShowInt(n)[|ShowInt(n)| - 1])
    ensures ShowInt(n)[0] !in IntWhitespace && ShowInt(n)[|ShowInt(n)| - 1] !in IntWhitespace
  {
    var t := ShowInt(n);
    assert t[0] == '-' || IsDigit(t[0]);
    assert IsDigit(t[|t| - 1]);
  }

  /** `int(s)`: `None` where Python raises `ValueError`. Surrounding ASCII whitespace
      and non-ASCII spaces, one leading sign and leading zeros are accepted. */
  function ParseInt(s: string): (r: Option<int>)
    ensures AllIn(s, IntWhitespace) ==> r == None
    ensures 0 < |s| <= MaxStrDigits && AllDigits(s) ==> r == Some(DigitsValue(s))
    ensures |s| > MaxStrDigits && AllDigits(s) ==> r == None
  {
    var t := Strip(s, IntWhitespace);
    assert AllDigits(s) ==> ParseTrimmed(t) == ParseTrimmed(s) by {
      StripDigits(s);
    }
    ParseTrimmed(t)
  }

  /** `int` on text that has no surrounding whitespace. */
  function ParseTrimmed(t: string): (r: Option<int>)
    ensures t == [] ==> r == None
    ensures 0 < |t| <= MaxStrDigits && AllDigits(t) ==> r == Some(DigitsValue(t))
    ensures |t| > MaxStrDigits && AllDigits(t) ==> r == None
  {
    if |t| > 0 && (t[0] == '+' || t[0] == '-') then
      var body := t[1..];
      if 0 < |body| <= MaxStrDigits && AllDigits(body) then
        var v: int := DigitsValue(body);
        Some(if t[0] == '-' then -v else v)
      else None
    else if 0 < |t| <= MaxStrDigits && AllDigits(t) then Some(DigitsValue(t))
    else None
  }

  lemma StripDigits(s: string)
    ensures AllDigits(s) ==> Strip(s, IntWhitespace) == s
  {
    if |s| > 0 && AllDigits(s) {
      StripTrimmed(s, IntWhitespace);
    }
  }

  lemma {:induction false} DigitsRoundTrip(n: nat)
    ensures DigitsValue(Digits(n)) == n
  {
    if n >= 10 {
      var d := Digits(n);
      assert d[..|d| - 1] == Digits(n / 10);
      DigitsRoundTrip(n / 10);
    }
  }

  /** `int(str(n)) == n` */
  lemma ShowRoundTrip(n: int)
    requires Showable(n)
    ensures ParseInt(ShowInt(n)) == Some(n)
  {
    ShowIntStartsSolid(n);
    StripTrimmed(ShowInt(n), IntWhitespace);
    ShowParses(n);
  }

  /** `int(str(n)) == n`, and the whitespace `int()` skips around the text does not
      change that. */
  lemma ParseShowRoundTrip(n: int, pre: string, post: string)
    requires Showable(n)
    requires AllIn(pre, IntWhitespace) && AllIn(post, IntWhitespace)
    ensures ParseInt(pre + ShowInt(n) + post) == Some(n)
  {
    var t := ShowInt(n);
    assert Strip(pre + t + post, IntWhitespace) == t by {
      ShowIntStartsSolid(n);
      StripPadded(pre, t, post, IntWhitespace);
    }
    assert ParseTrimmed(t) == Some(n) by {
      ShowParses(n);
    }
  }

  /** `int` reads back the text `str` writes, sign included. */
  lemma ShowParses(n: int)
    requires Showable(n)
    ensures ParseTrimmed(ShowInt(n)) == Some(n)
  {
    var t := ShowInt(n);
    var d := Digits(Abs(n));
    DigitsRoundTrip(Abs(n));
    if n < 0 {
      assert t[0] == '-' && t[1..] == d;
    } else {
      assert t == d;
    }
  }

  /** Stripping every `isspace()` character before `int()`, as the configuration
      dialogue does, never changes a number `int()` accepts on its own. */
  lemma StripThenParse(s: string)
    requires ParseInt(s).Some?
    ensures ParseInt(Strip(s, Whitespace)) == ParseInt(s)
  {
    var t := Strip(s, IntWhitespace);
    var i := TrimmedOffsets(s, IntWhitespace, TrimStart(s, IntWhitespace), t);
    ParseIntStrips(s);
    ParsedEnds(t);
    StripWider(s, i, t);
    ParseIntStrips(t);
    StripTrimmed(t, IntWhitespace);
  }

  lemma ParseIntStrips(s: string)
    ensures ParseInt(s) == ParseTrimmed(Strip(s, IntWhitespace))
  {
  }

  /** Text that only `int()`'s whitespace surrounds strips to the same core with every
      `isspace()` character. */
  lemma StripWider(s: string, i: nat, t: string)
    requires i + |t| <= |s| && t == s[i..i + |t|]
    requires AllIn(s[..i], IntWhitespace) && AllIn(s[i + |t|..], IntWhitespace)
    requires |t| > 0 && t[0] !in Whitespace && t[|t| - 1] !in Whitespace
    ensures Strip(s, Whitespace) == t
  {
    var pre, post := s[..i], s[i + |t|..];
    assert s == pre + t + post;
    IntSpaceIsSpace(pre);
    IntSpaceIsSpace(post);
    StripPadded(pre, t, post, Whitespace);
  }

  /** Text `int` accepts starts with a sign or a digit and ends with a digit. */
  lemma ParsedEnds(t: string)
    requires ParseTrimmed(t).Some?
    ensures |t| > 0 && t[0] !in Whitespace && t[|t| - 1] !in Whitespace
    ensures t[0] !in IntWhitespace && t[|t| - 1] !in IntWhitespace
  {
    assert t[0] == '+' || t[0] == '-' || IsDigit(t[0]);
    assert IsDigit(t[|t| - 1]);
  }

  lemma {:induction false} IntSpaceIsSpace(s: string)
    requires AllIn(s, IntWhitespace)
    ensures AllIn(s, Whitespace)
    decreases |s|
  {
    if s != [] {
      IntWhitespaceIsSeparatorFree();
      IntSpaceIsSpace(s[1..]);
    }
  }

  /** `strip()` and `int()` disagree on the ASCII separators: `strip()` removes a
      leading U+001C, and `int()` refuses the same text. */
  lemma IntRejectsSeparators()
    ensures Strip("\U{1C}5", Whitespace) == "5"
    ensures ParseInt("\U{1C}5") == None
  {
    StripsSeparator();
    SeparatorNotInt();
  }

  lemma StripsSeparator()
    ensures Strip("\U{1C}5", Whitespace) == "5"
  {
    assert "\U{1C}5" == "\U{1C}" + "5" + "";
    StripPadded("\U{1C}", "5", "", Whitespace);
  }

  lemma SeparatorNotInt()
    ensures ParseInt("\U{1C}5") == None
  {
    var s := "\U{1C}5";
    assert s[0] == '\U{1C}' && s[1] == '5' && |s| == 2;
    NotANumber(s);
  }

  /** Text with no whitespace to skip that starts with neither a sign nor a digit is
      refused. */
  lemma NotANumber(s: string)
    requires |s| > 0 && s[0] !in IntWhitespace && s[|s| - 1] !in IntWhitespace
    requires s[0] != '+' && s[0] != '-' && !IsDigit(s[0])
    ensures ParseInt(s) == None
  {
    StripTrimmed(s, IntWhitespace);
    Unsigned(s);
  }

  /** Text that starts with neither a sign nor a digit is not a number. */
  lemma Unsigned(t: string)
    requires |t| > 0 && t[0] != '+' && t[0] != '-' && !IsDigit(t[0])
    ensures ParseTrimmed(t) == None
  {
    assert !AllDigits(t);
  }
}
